=== FILE: README.md ===
# Dialogs, event bus and app utilities of a mobile app shell

This project models the logic at the core of a Vue/Capacitor mobile app shell and proves properties
of it in Dafny:

- **Event bus** (`event_bus.dfy`, module `PubSub`): a scoped publish/subscribe registry. Each
  registered instance owns a handler table, and scope `0` is global. `emit` delivers to every scope
  and `emitToInstance` to one scope. `once` handlers are unbound before they run. A `stickyEmit`
  that reaches nobody is kept and replayed by the next `on`. Handlers are opaque ids, and each
  emission returns the trace of `(scope, slot, handler, args)` calls it makes. `PubSub.EventBus`,
  and the dialogs built on it, stamp instances with the corrected numeric counter (the one starting
  at 1), not with the counter as written, which hands every instance NaN (see Findings).
- **Scope counter** (`scope_counter.dfy`, module `ScopeCounter`): the instance-id counter of the
  bus as written, on a small model of JavaScript numbers, and the numeric counter it evidently means
  to be (see Findings).
- **Dialog configuration** (`dialog_config.dfy`, module `DialogConfig`): how a dialog finds its
  registration (local, then the component type's, then global) and the priority order of option
  merging.
- **Dialogs** (`dialog.dfy`, module `Dialogs`): the `Dialog` class (`show`, `close`, the close
  guard, scoped `on`/`off`/`emit`) and a `DialogManager` holding `dialogMap` (uuid to shown dialog),
  `singleDialogMap` (name to shown singleton), `globalDialogMap` (name to registration) and the
  ordered `showList`, with `registerDialog`, `useDialog`, `get`, `getSingle`, `getInstance` and
  `closeAll`.
- **App info** (`app_info.dfy`, module `AppInfo`, using `text.dfy`): the country code derived from a
  device language tag, and the dotted-version comparison that decides whether an update exists.
- **Storage** (`storage.dfy`, module `Storage`): the key-prefixing, expiring key/value store over
  `localStorage`.
- **Navigation** (`navigation.dfy`, module `Navigation`): which router action (replace, push, back
  or none) each navigation helper performs.
- **Auto update** (`auto_update.dfy`, module `AutoUpdate`): the update-check scheduler, with its
  timer flag, rejection flag, last check time and 12-hour interval.

Clocks, the device and network calls, and user answers are parameters. A custom close guard is
represented by the verdict it resolves to, which `Close` receives as an argument. The timers that
delay a close are collapsed into one atomic step.

## Model

| member | source | states |
|---|---|---|
| PubSub.SortedKeys | src/utils/eventBus.ts:71 | The handler slots of a type are visited in ascending numeric order, the order `Object.keys` gives integer-like keys: exactly the slots, each once, strictly increasing |
| PubSub.Kept | src/utils/eventBus.ts:73-77 | The slots left after an emission are exactly those whose handler is not a `once` handler, with their handlers unchanged |
| PubSub.DeliverInScope | src/utils/eventBus.ts:71-79 | The per-scope delivery loop calls every bound handler of the type in slot order with the arguments, and leaves exactly the non-`once` bindings |
| PubSub.ScopeCallsExactlyBindings | src/utils/eventBus.ts:71-79 | A call is in one scope's delivery iff its handler is bound in that slot with those arguments; no call is made twice |
| PubSub.TraceIsBindings | src/utils/eventBus.ts:64-81 | Across scopes visited in registration order, `emit` calls every bound handler of the type in every scope exactly once, and calls nothing else |
| PubSub.DropOnceAllBindings | src/utils/eventBus.ts:73-77 | After an emission a binding survives iff it existed and its handler is not a `once` handler |
| PubSub.OnceHandlersNotCalledAgain | src/utils/eventBus.ts:59-77 | A second emission of the same type calls no `once` handler that the first emission reached |
| PubSub.LateSubscriberReceivesReplay | src/utils/eventBus.ts:46-57 | A handler subscribed in a live scope is among the calls the replay of a pending sticky message makes |
| PubSub.NoCallsWithoutTable | src/utils/eventBus.ts:64-70 | An emission makes no call in a scope whose table was removed by `unregister` |
| PubSub.Without | src/utils/eventBus.ts:28 | Removing a scope from the visiting order keeps every other scope and no duplicates |
| PubSub.WithoutAll | src/utils/eventBus.ts:26-33 | The visiting order after several `unregister`s holds exactly the scopes not removed |
| PubSub.WithoutAllStep | src/utils/eventBus.ts:26-33 | Unregistering one more scope from an order that already lacks a set of scopes is the order without the set and that scope |
| PubSub.Bind | src/utils/eventBus.ts:46-48 | The type's table is created if missing and slot `id` holds the handler; every other slot, every other type and the scope's counter are kept |
| PubSub.Unbind | src/utils/eventBus.ts:151-156 | Slot `id` is removed and every other slot kept; the type stays iff some other slot remains, so no empty table is left; other types and the counter are kept |
| PubSub.RemoveTypeEverywhere | src/utils/eventBus.ts:138-145 | Every scope keeps its place and its counter, loses the type, and keeps every other type unchanged |
| PubSub.Stamped | src/utils/eventBus.ts:47 | After `on`, the handler always has an id |
| PubSub.EventBus.constructor | src/utils/eventBus.ts:1-12 | The bus starts with only the global scope `0`, an empty table in it, no stamped instance or handler and no pending message |
| PubSub.EventBus.Register | src/utils/eventBus.ts:14-24 | With the corrected numeric counter, an unstamped instance takes the next scope id, distinct from every other instance's; a stamped one keeps its id; either way its scope gets a fresh empty table, so re-registering drops its handlers |
| PubSub.EventBus.Unregister | src/utils/eventBus.ts:26-33 | The instance's scope table is deleted; an unstamped instance changes nothing |
| PubSub.EventBus.Emit | src/utils/eventBus.ts:64-81 | The calls are the trace over all scopes in registration order, and the new tables are the old ones with every `once` binding of the type dropped (and a type left empty removed) |
| PubSub.EventBus.EmitInOrder | src/utils/eventBus.ts:65-80 | The loop over scopes in registration order makes exactly the trace's calls and drops the `once` bindings of the type in every scope |
| PubSub.EventBus.RemoveInOrder | src/utils/eventBus.ts:140-143 | The loop over scopes removes the type from every scope table and changes nothing else |
| PubSub.EventBus.EmitInScope | src/utils/eventBus.ts:66-79 | One scope's delivery: the calls of that scope, and that scope's table with its `once` bindings of the type dropped |
| PubSub.EventBus.EmitToInstance | src/utils/eventBus.ts:83-99 | Only the instance's own scope is reached; nothing happens when the instance, its scope table or the type's table is missing |
| PubSub.EventBus.StickyEmit | src/utils/eventBus.ts:101-125 | Delivers like `emit`; with no call made the arguments become the pending message of the type, replacing any earlier one, otherwise the pending message is deleted |
| PubSub.EventBus.CheckMessage | src/utils/eventBus.ts:52-57 | A pending message is emitted to all current subscribers and then deleted; without one nothing changes |
| PubSub.EventBus.Subscribe | src/utils/eventBus.ts:46-48 | The handler keeps an existing id or takes the scope's next one, and is bound under that id, overwriting the same slot rather than adding a second binding |
| PubSub.EventBus.On | src/utils/eventBus.ts:35-50 | An instance without an id binds globally; a missing scope table fails with nothing changed; otherwise the handler is bound and a pending message of the type is replayed and deleted |
| PubSub.EventBus.Once | src/utils/eventBus.ts:59-62 | The handler is marked `once` for good, and the bus then changes exactly as `on` changes it: failure with nothing changed, or the binding, the stamp and the replay of a pending message, in which the new `once` handler is called and then dropped |
| PubSub.EventBus.Off | src/utils/eventBus.ts:127-157 | With no handler or an unstamped one the type is removed from every scope; otherwise only that handler's slot in the given scope (global without an instance) is removed and an emptied type table deleted; an unregistered scope fails with nothing changed |
| ScopeCounter.PostIncrement | src/utils/eventBus.ts:16 | `x++` yields the numeric value of the slot and stores that value plus one; an object or NaN slot yields and stores NaN |
| ScopeCounter.StampAsWritten | src/utils/eventBus.ts:16 | A truthy own id is kept; otherwise the counter is post-incremented |
| ScopeCounter.AsWrittenEveryInstanceGetsNaN | src/utils/eventBus.ts:1-16 | With the counter initialised to an object, every registered instance is stamped NaN, and re-registering a NaN-stamped instance stamps NaN again |
| ScopeCounter.AsWrittenFirstTwoInstancesCollide | src/utils/eventBus.ts:1-19 | The first two registered instances get the same id, so they share one scope table |
| ScopeCounter.FreshIdsAreDistinct | src/utils/eventBus.ts:14-19 | With a numeric counter starting at 1, successive instances get consecutive, distinct, non-zero ids |
| DialogConfig.Merge | src/components/dialog/dialog.ts:115 | The merged options hold exactly the keys of the four sources |
| DialogConfig.MergePriority | src/components/dialog/dialog.ts:115 | Each key takes its value from the call options, else the constructor options, else the registration options, else the current options (initially the defaults) |
| DialogConfig.MergeIdempotent | src/components/dialog/dialog.ts:115 | Showing again with the same options leaves the merged options unchanged |
| DialogConfig.Lookup | src/components/dialog/dialog.ts:66-67 | A registry lookup succeeds iff the registry exists and holds the name |
| DialogConfig.Resolve | src/components/dialog/dialog.ts:64-104 | `isLocal` holds iff the local or the type's registry matched; no component iff no registry matched, in which case the name, empty registration options and the defaults are kept |
| DialogConfig.ResolutionFollowsChosenEntry | src/components/dialog/dialog.ts:69-104 | For the entry chosen, a config-shaped entry gives its `componentName` or the name, its `opts` or the component's `dialogOptions` or nothing, merged over the defaults; a bare component gives the name and its `dialogOptions` |
| DialogConfig.LocalShadowsOtherRegistries | src/components/dialog/dialog.ts:66-67 | When the parent's local registry holds the name, the type's and global registries do not matter |
| DialogConfig.TypeRegistryShadowsGlobal | src/components/dialog/dialog.ts:66-86 | When the type's registry holds the name, the global registry does not matter |
| Dialogs.Blocks | src/components/dialog/dialog.ts:146-151 | The default guard (which resolves to false) never stops a close; a custom one stops it exactly when it resolves to true |
| Dialogs.Parent.constructor | src/components/dialog/dialog.ts:66-67 | A component starts with its type's `useDialogs` and no local registrations until `useDialog` attaches them |
| Dialogs.IndexOfUuid | src/components/dialog/dialog.ts:157 | `findIndex`: the first index whose entry has the uuid, or none when no entry has it |
| Dialogs.WithoutFirstUuid | src/components/dialog/dialog.ts:157-160 | The first entry with the uuid is spliced out, one entry fewer and the rest kept; without a match the list is unchanged |
| Dialogs.CloseUndoesShow | src/components/dialog/dialog.ts:134-160 | Closing a dialog removes exactly the entry its `show` appended |
| Dialogs.Targets | src/components/dialog/index.ts:116-122 | Every dialog `closeAll` closes is one recorded in `dialogMap` or `singleDialogMap` |
| Dialogs.TargetsCoverRecordedDialogs | src/components/dialog/index.ts:116-122 | Every shown dialog still recorded under its uuid or its name is closed by `closeAll` |
| Dialogs.Dialog.constructor | src/components/dialog/dialog.ts:52-105 | The new dialog takes the bus's next scope id, every other instance keeping its own, and its new scope gets an empty table at the end of the visiting order; it starts hidden with no props and the default guard, and holds the configuration resolved from the parent's and the global registries |
| Dialogs.Dialog.Show | src/components/dialog/dialog.ts:113-140 | Props and options are merged; an already showing dialog changes nothing else; a hidden one is recorded under its name (singleton) or uuid, marked showing and appended to `showList` once; the manager's consistency is kept |
| Dialogs.Dialog.Close | src/components/dialog/dialog.ts:146-179 | A blocking guard changes nothing; otherwise the dialog is hidden, its first `showList` entry removed, its name (singleton) or uuid forgotten, and, when it has a scope, that scope's table deleted and the scope dropped from the visiting order |
| Dialogs.Dialog.BeforeClose | src/components/dialog/dialog.ts:185-187 | The guard is replaced by the given callback |
| Dialogs.Dialog.On | src/components/dialog/dialog.ts:195-198 | Subscribes as the bus's `on` in this dialog's scope and returns the dialog |
| Dialogs.Dialog.Off | src/components/dialog/dialog.ts:206-209 | Unsubscribes as the bus's `off` in this dialog's scope and returns the dialog |
| Dialogs.Dialog.Emit | src/components/dialog/dialog.ts:217-220 | Delivers only in this dialog's scope, as `emitToInstance`, and returns the dialog |
| Dialogs.DialogManager.constructor | src/components/dialog/index.ts:38-40 | Starts with nothing shown and `PhotoPreview` and `Confirm` registered globally |
| Dialogs.DialogManager.RegisterDialog | src/components/dialog/index.ts:29-34 | Inserts or overwrites the global registration under the key |
| Dialogs.DialogManager.RegisterAll | src/components/dialog/index.ts:38-40 | Registers a list in order, so a repeated key ends with its last entry |
| Dialogs.WithEntries | src/components/dialog/index.ts:38-40 | The registry after a list is registered holds exactly its old keys and the list's keys |
| Dialogs.WithEntriesLastWins | src/components/dialog/index.ts:38-40 | A key the list registers holds its last entry |
| Dialogs.WithEntriesKeepsOthers | src/components/dialog/index.ts:38-40 | A key the list does not register keeps its old registration |
| Dialogs.UseDialog | src/components/dialog/index.ts:59-66 | The local registrations are attached to the component only when both exist |
| Dialogs.DialogManager.Get | src/components/dialog/index.ts:83-85 | Always a new, hidden, non-singleton dialog in the caller's context, registered on the bus under a fresh scope and configured as its registrations resolve |
| Dialogs.DialogManager.GetSingle | src/components/dialog/index.ts:96-99 | The singleton recorded under the name when there is one, ignoring the options and leaving the bus unchanged; otherwise a new hidden singleton, registered under a fresh scope and configured as its registrations resolve, that is not recorded until shown |
| Dialogs.DialogManager.GetInstance | src/components/dialog/index.ts:108 | The shown non-singleton dialog with the uuid, none when it is not recorded |
| Dialogs.DialogManager.PopAll | src/components/dialog/index.ts:116-118 | Popping from the end drains `showList`, collecting the recorded dialogs of each entry |
| Dialogs.DialogManager.CloseEach | src/components/dialog/index.ts:119-122 | Each collected dialog is closed unless its guard blocks: `dialogMap` loses exactly the uuids and `singleDialogMap` exactly the names of the closed dialogs, their scopes' tables are deleted and dropped from the visiting order, closed dialogs are hidden, and blocked or uncollected dialogs keep `isShowing` |
| Dialogs.DialogManager.CloseTarget | src/components/dialog/index.ts:119-122 | Closing one collected dialog extends the uuids, names and scopes already forgotten by that dialog's alone, or by nothing when its guard blocks |
| Dialogs.CloseBookkeeping | src/components/dialog/dialog.ts:159-173 | If the maps, tables and order forgot a prefix of the collected dialogs, and the next close does what `close` does, they forget the longer prefix |
| Dialogs.DialogManager.CloseAll | src/components/dialog/index.ts:114-124 | `showList` ends empty whatever the guards decide; the maps, scope tables and visiting order lose exactly what the unblocked closes remove; closed dialogs are hidden and every other dialog keeps `isShowing`; with no blocking guard and every recorded dialog on `showList`, both maps end empty |
| Dialogs.ClosingAllEmptiesMaps | src/components/dialog/index.ts:114-124 | When every recorded dialog is on `showList` and none is blocked, the uuids and names `closeAll` forgets are all the keys of both maps |
| AppInfo.TableValuesWellFormed | src/utils/appInfo.ts:17-38 | Every country code in the language table is a non-empty lower-case code without `-` |
| AppInfo.CountryFromTag | src/utils/appInfo.ts:49-92 | The country is always a lower-case code without `-`, either `us` or one from the language table or a subtag of the tag |
| AppInfo.DeviceCountry | src/utils/appInfo.ts:44-93 | Off native, or when the device call fails, the country is `us`; otherwise it is derived from the tag |
| AppInfo.RegionOfTwoPartTag | src/utils/appInfo.ts:64-68 | A two-part tag with a two-letter second part gives that part, lower-cased |
| AppInfo.TagParts | src/utils/appInfo.ts:49-53 | The subtags seen for a tag joined from separator-free pieces are exactly those pieces, lower-cased |
| AppInfo.RegionOfLongTag | src/utils/appInfo.ts:56-61 | A tag with more than two subtags and a non-empty last subtag gives that last subtag, lower-cased, whatever their number |
| AppInfo.ThirdSubtagWhenLastEmpty | src/utils/appInfo.ts:63-72 | With an empty last subtag and a non-empty second subtag that is not two characters long, a non-empty third subtag is chosen, lower-cased |
| AppInfo.PrimarySubtagFallback | src/utils/appInfo.ts:63-84 | A two-subtag tag whose second subtag is not two characters long gives the table entry of the whole lower-cased tag, else that of a non-empty primary subtag, else `us` |
| AppInfo.ScriptSubtagIgnored | src/utils/appInfo.ts:17-84 | `zh-Hant` gives `cn` through its primary subtag, although the table maps the script `hant` to `tw`: script entries are reachable only as a whole tag |
| AppInfo.SingleSubtagUsesTable | src/utils/appInfo.ts:76-92 | A tag without `-` is looked up whole in the table, falling back to `us` |
| AppInfo.ParseVersion | src/utils/appInfo.ts:177-178 | One number per `.`-separated part, a non-numeric part counting as 0 |
| AppInfo.NewerAtFirstDifference | src/utils/appInfo.ts:181-195 | After zero-padding, an update exists iff at the first differing position the store's part is larger; equal versions give none |
| AppInfo.NewerAsymmetric | src/utils/appInfo.ts:181-195 | Two versions are never both newer than each other |
| AppInfo.NewerIrreflexive | src/utils/appInfo.ts:186-195 | A version is not newer than itself |
| AppInfo.NewerStorePadding | src/utils/appInfo.ts:181-183 | A trailing `.0` on the store version never changes the verdict |
| AppInfo.NewerCurrentPadding | src/utils/appInfo.ts:181-183 | A trailing `.0` on the current version never changes the verdict |
| AppInfo.HasUpdate | src/utils/appInfo.ts:177-195 | The padding loops and the comparison loop compute exactly the first-difference verdict |
| Text.Split | src/utils/appInfo.ts:53 | `split` gives at least one part, no part holds the separator, and joining the parts gives the string back |
| Text.SplitJoin | src/utils/appInfo.ts:53 | Splitting the join of separator-free parts gives the parts back |
| Text.Lower | src/utils/appInfo.ts:49-71 | `toLowerCase` keeps the length, maps each character and leaves no upper-case letter |
| Text.LowerJoin | src/utils/appInfo.ts:49-53 | Lower-casing a `-`-joined tag lower-cases each subtag and keeps the separators |
| Storage.GenKey | src/utils/storage.ts:8-10 | With no prefixes the slot is the key itself; otherwise it is the prefixes joined with `:`, then `:`, then the key (the exported store's slots are `study-game:<key>`) |
| Storage.GenKeyInjective | src/utils/storage.ts:8-10 | Different keys under the same prefixes give different stored keys |
| Storage.Saved | src/utils/storage.ts:45-53 | The record holds the value and the save time; a missing or zero expiry becomes the never-expires sentinel -1; the expiry is never falsy |
| Storage.Loaded | src/utils/storage.ts:55-81 | An absent key gives the default and keeps the store; a present record is kept exactly when it parses, has non-zero `e` and `t`, and either `e == -1` or `now < t + e`; a dropped record gives the default, a kept one its value |
| Storage.InvalidRecordDropped | src/utils/storage.ts:63-66 | An unparseable record, or one with a missing or zero `e` or `t`, is removed and the default comes back |
| Storage.SentinelNeverExpires | src/utils/storage.ts:67-69 | A stored record with `e == -1` and non-zero `t` is kept and its value returned at any time |
| Storage.NeverExpiringRoundTrip | src/utils/storage.ts:45-69 | A value saved without expiry loads back at any time |
| Storage.RoundTripBeforeExpiry | src/utils/storage.ts:45-74 | A value saved with an expiry loads back before `t + e` |
| Storage.ExpiredAtBoundary | src/utils/storage.ts:70-73 | At or after `t + e` the default is returned and the key removed (the boundary is inclusive) |
| Storage.VStorage.constructor | src/utils/storage.ts:4-6 | The prefix list holds the one given prefix |
| Storage.VStorage.Save | src/utils/storage.ts:45-53 | Only the prefixed key changes, to the saved record |
| Storage.VStorage.Load | src/utils/storage.ts:55-81 | Returns the loaded value and removes the prefixed key exactly when the record is dropped |
| Storage.VStorage.Clear | src/utils/storage.ts:83-86 | Removes only the prefixed key |
| Storage.VStorage.ClearAll | src/utils/storage.ts:88-90 | Empties the store |
| Navigation.TabPageNames | src/utils/navigation.ts:5 | The tab page names are the route names of the configured tabs, in order |
| Navigation.IsTabPage | src/utils/navigation.ts:15-17 | A route name is a tab page iff it is `home` or `profile` |
| Navigation.RouteName | src/utils/navigation.ts:20-25 | A string route is its own name; an object route gives its `name` |
| Navigation.NavigationManager.constructor | src/utils/navigation.ts:7-8 | The manager starts without a router |
| Navigation.NavigationManager.Init | src/utils/navigation.ts:10-12 | After `init` a router is present |
| Navigation.NavigationManager.SwitchTab | src/utils/navigation.ts:28-41 | Replaces iff a router is present and the route names a tab page; otherwise does nothing |
| Navigation.NavigationManager.NavigateTo | src/utils/navigation.ts:44-56 | Without a router nothing; to a tab page a replace, as `switchTab`; otherwise a push |
| Navigation.NavigationManager.NavigateBack | src/utils/navigation.ts:59-71 | Goes back iff a router is present and the current route is not a tab page |
| Navigation.NavigationManager.RedirectTo | src/utils/navigation.ts:74-81 | Replaces whenever a router is present, otherwise does nothing |
| AutoUpdate.Check | src/utils/autoUpdate.ts:80-99 | A rejected user is not asked again and nothing changes; otherwise the last check time becomes now and the store is queried |
| AutoUpdate.Start | src/utils/autoUpdate.ts:38-65 | With a timer or a rejection nothing happens; otherwise a timer is installed, a check runs now iff more than 12 hours passed since the last one, and the last-check time becomes `now` exactly when it ran (nothing else changes) |
| AutoUpdate.Stop | src/utils/autoUpdate.ts:70-75 | The timer is gone and nothing else changes |
| AutoUpdate.Tick | src/utils/autoUpdate.ts:57-64 | A tick after a rejection stops the timer; otherwise it checks |
| AutoUpdate.Init | src/utils/autoUpdate.ts:21-33 | Off native nothing happens; on native the rejection is cleared and the last-check time reset to 0, so without a timer a check runs at once iff `now` exceeds 12 hours (stamping `now`), and with a timer already installed the state is only reset and no check runs |
| AutoUpdate.Cancel | src/utils/autoUpdate.ts:108-112 | Choosing cancel sets the rejection and stops the timer |
| AutoUpdate.StartIsIdempotent | src/utils/autoUpdate.ts:38-47 | Starting a second time does nothing, so at most one timer is active |
| AutoUpdate.RejectionIsFinal | src/utils/autoUpdate.ts:38-112 | After a rejection no sequence of starts, ticks, checks and cancels queries the store or installs a timer |
| AutoUpdate.AutoUpdater.constructor | src/utils/autoUpdate.ts:11-15 | No timer, no rejection, last check time 0 |
| AutoUpdate.AutoUpdater.CheckUpdateAndShowDialog | src/utils/autoUpdate.ts:80-99 | The state moves as `Check` says and an update is offered only when the store was queried and reported one |
| AutoUpdate.AutoUpdater.StartAutoCheck | src/utils/autoUpdate.ts:38-65 | The state moves as `Start` says |
| AutoUpdate.AutoUpdater.StopAutoCheck | src/utils/autoUpdate.ts:70-75 | The state moves as `Stop` says |
| AutoUpdate.AutoUpdater.OnInterval | src/utils/autoUpdate.ts:57-64 | The state moves as `Tick` says |
| AutoUpdate.AutoUpdater.InitAutoUpdate | src/utils/autoUpdate.ts:21-33 | The state moves as `Init` says |
| AutoUpdate.AutoUpdater.CancelUpdate | src/utils/autoUpdate.ts:108-112 | The state moves as `Cancel` says |

## Left out

- PubSub.EventBus.Register: stamps with the corrected numeric counter, not the counter as written (which yields NaN for every instance); the as-written behaviour is modelled only in `ScopeCounter` (see Findings).
- PubSub.EventBus.On: scope tables and handler tables are plain objects in the source, so an event type named like an inherited `Object.prototype` member (`constructor`, `toString`) finds an existing value there; the model treats every type as an own key, so such a type starts with no handlers.
- DialogConfig.Resolve: the `localDialog` and `useDialogs` lookups see inherited `Object.prototype` names as well; the model looks up own keys only, as it does for the language table.
- Handlers are opaque ids: the code they run is not modelled, and neither is a handler that calls back into the bus during an emission.
- The counter kept under the `$$vuuid` key of every scope table and of the top-level table is a separate field; an event type or a key literally named `$$vuuid` is not modelled.
- `register` called without an instance throws and is caught with only a log; the model requires an instance.
- `off` with a handler stamped in one scope and an instance whose scope table is missing throws; the model reports this as a failed call with nothing changed, as it does for `on` with a missing table.
- Dialogs.Dialog.Close: the guard is awaited and the cleanup deferred by timers; the model runs the cleanup as one atomic step with the guard's verdict as input, so interleavings of concurrent closes are not captured. The 500 ms settle delays of `show` and `close` are not modelled.
- Dialogs.DialogManager.CloseAll: after it, a dialog whose guard blocked stays marked showing but is no longer in `showList`, so a later `show` of it only merges options; the model keeps this behaviour.
- Uuids are generated from the clock and `Math.random`; the model takes them as parameters. Vue reactivity, the DOM and app mounting are not modelled.
- The dialog close that the update dialog's buttons perform, and opening the app store, are not modelled.
- `show` called without props or options is modelled as a call with empty maps.
- AppInfo.CountryFromTag: `toLowerCase` is modelled for ASCII letters only; other characters are kept. Lengths count code points, while JavaScript's `.length` counts UTF-16 code units, so a subtag holding a character outside the Basic Multilingual Plane is measured differently.
- AppInfo.CountryFromTag: language-table lookups see only the table's own keys, not inherited object properties such as `constructor`.
- AppInfo.ParseVersion: a part counts by its decimal digits and anything else is 0; the JavaScript `Number()` readings of hex, exponents, whitespace and signs are not modelled. Parts are unbounded naturals, while JavaScript numbers are doubles: a digit string too long for a double becomes `Infinity`, and two such parts compare equal in the source but not in the model.
- Times in storage are integers of seconds, not floating-point seconds; `JSON.stringify`/`JSON.parse` are replaced by an abstract record, with unparseable text as its own case; `customSave`/`customLoad` are not modelled.
- Capacitor, the device, `fetch`, `setInterval`/`setTimeout`, `window.open` and console logging are left out; their results are parameters.
- The HTTP wrapper, the debugging console, the router set-up and the other bootstrapping files are not part of this model.

## Findings

| source | as written | input that shows it | evidently intended | confidence | as-written member | corrected member |
|---|---|---|---|---|---|---|
| src/utils/eventBus.ts:1-16 | The instance counter `pubSubCache.$$vuuid` is initialised to the object `{ $$vuuid: 1 }`, so `pubSubCache.$$vuuid++` yields NaN and every instance is stamped NaN. All instances then share the scope `id_NaN`, and since NaN is falsy every `register` stamps again and wipes that shared table | Create dialog A and subscribe a handler in A's scope, then create dialog B: B is stamped NaN too, and its `register` replaces the shared `id_NaN` table, so A's handler is gone. A handler that A subscribes after that lands in the same table and is reached by `emitToInstance` on B | A numeric counter starting at 1, giving each instance its own scope id | not executed | ScopeCounter.AsWrittenEveryInstanceGetsNaN | ScopeCounter.FreshIdsAreDistinct |

=== FILE: app_info.dfy ===
/**
 * The two pure computations of the app-info helpers: the country code derived from the device's
 * language tag, and the dotted-version comparison that decides whether the store has an update.
 * Device, platform and network queries are parameters.
 */
module AppInfo {
  import opened Wrappers
  import opened Text

  const DefaultCountryCode: string := "us"

  /** Language (or script) subtag to country code. */
  const LanguageToCountry: map<string, string> := map[
    "hans" := "cn", "hant" := "tw", "zh" := "cn",
    "en" := "us",
    "ja" := "jp",
    "ko" := "kr",
    "fr" := "fr", "es" := "es", "de" := "de", "it" := "it", "ru" := "ru"
  ]

  /** Every country code the table can produce is a non-empty lower-case word without `-`. */
  lemma TableValuesWellFormed()
    ensures forall k :: k in LanguageToCountry ==>
      var v := LanguageToCountry[k]; v != [] && IsLower(v) && '-' !in v
  {
  }

  /**
   * The heuristic applied to the device's language tag: the last subtag of a tag with three or more
   * parts, else a two-letter second subtag, else a non-empty third subtag, else the table entry for the
   * whole tag, then for the primary subtag, else the default. (Each chosen piece is already lower case,
   * so the source's extra `toLowerCase()` on it changes nothing.)
   */
  function CountryFromTag(deviceTag: string): (country: string)
    ensures country != [] && IsLower(country) && '-' !in country
    ensures country == DefaultCountryCode || country in LanguageToCountry.Values
            || country in Split(Lower(deviceTag), '-')
  {
    var languageTag := Lower(deviceTag);
    var parts := Split(languageTag, '-');
    SplitChars(languageTag, '-');
    TableValuesWellFormed();
    if |parts| > 2 && parts[|parts| - 1] != "" then parts[|parts| - 1]
    else if |parts| > 1 && parts[1] != "" && |parts[1]| == 2 then parts[1]
    else if |parts| > 1 && parts[1] != "" && |parts| > 2 && parts[2] != "" then parts[2]
    else if languageTag in LanguageToCountry then LanguageToCountry[languageTag]
    else if parts[0] != "" && parts[0] in LanguageToCountry then LanguageToCountry[parts[0]]
    else DefaultCountryCode
  }

  /**
   * `getDeviceCountry`: off a native platform, or when the device query fails (`None`), the default;
   * otherwise the heuristic on the reported tag.
   */
  function DeviceCountry(isNative: bool, deviceTag: Option<string>): (country: string)
    ensures !isNative || deviceTag.None? ==> country == DefaultCountryCode
    ensures isNative && deviceTag.Some? ==> country == CountryFromTag(deviceTag.value)
  {
    if isNative && deviceTag.Some? then CountryFromTag(deviceTag.value) else DefaultCountryCode
  }

  /** `language-REGION` with a two-letter region yields the region, lower-cased. */
  lemma RegionOfTwoPartTag(language: string, region: string)
    requires '-' !in language && '-' !in region && |region| == 2
    ensures CountryFromTag(language + "-" + region) == Lower(region)
  {
    LowerConcat(language + "-", region);
    LowerConcat(language, "-");
    assert Lower("-") == "-";
    LowerKeepsSep(language, '-');
    LowerKeepsSep(region, '-');
    var ps := [Lower(language), Lower(region)];
    assert ps[1..] == [Lower(region)];
    assert Join(ps, '-') == Lower(language) + "-" + Lower(region);
    assert Lower(language + "-" + region) == Join(ps, '-');
    SplitJoin(ps, '-');
    assert Split(Lower(language + "-" + region), '-') == ps;
  }

  /** The subtags the heuristic sees in a tag built from separator-free pieces are the pieces, lower-cased. */
  lemma TagParts(ps: seq<string>)
    requires |ps| >= 1 && forall i :: 0 <= i < |ps| ==> '-' !in ps[i]
    ensures Split(Lower(Join(ps, '-')), '-') == LowerAll(ps)
  {
    LowerJoin(ps, '-');
    forall i | 0 <= i < |ps| ensures '-' !in LowerAll(ps)[i] {
      LowerKeepsSep(ps[i], '-');
    }
    SplitJoin(LowerAll(ps), '-');
  }

  /** A tag of more than two subtags whose last subtag is non-empty yields that subtag, lower-cased. */
  lemma RegionOfLongTag(ps: seq<string>)
    requires |ps| > 2 && ps[|ps| - 1] != ""
    requires forall i :: 0 <= i < |ps| ==> '-' !in ps[i]
    ensures CountryFromTag(Join(ps, '-')) == Lower(ps[|ps| - 1])
  {
    TagParts(ps);
  }

  /**
   * When the last subtag is empty (a trailing `-`) and the second subtag is non-empty but not two
   * characters long, a non-empty third subtag is chosen, lower-cased.
   */
  lemma ThirdSubtagWhenLastEmpty(ps: seq<string>)
    requires |ps| > 3 && ps[|ps| - 1] == ""
    requires ps[1] != "" && |ps[1]| != 2 && ps[2] != ""
    requires forall i :: 0 <= i < |ps| ==> '-' !in ps[i]
    ensures CountryFromTag(Join(ps, '-')) == Lower(ps[2])
  {
    TagParts(ps);
  }

  /**
   * `language-sub` whose second subtag is not two characters long falls through to the table: the
   * whole tag first, then a non-empty primary subtag, then the default.
   */
  lemma PrimarySubtagFallback(language: string, sub: string)
    requires '-' !in language && '-' !in sub && |sub| != 2
    ensures var tag := Lower(language + "-" + sub);
      CountryFromTag(language + "-" + sub) ==
        if tag in LanguageToCountry then LanguageToCountry[tag]
        else if Lower(language) != "" && Lower(language) in LanguageToCountry then LanguageToCountry[Lower(language)]
        else DefaultCountryCode
  {
    var ps := [language, sub];
    assert ps[1..] == [sub];
    assert Join(ps, '-') == language + "-" + sub;
    TagParts(ps);
  }

  /**
   * The script entries of the table are reachable only as a whole tag: `zh-Hant` (Traditional
   * Chinese) yields `cn` through its primary subtag, not the `tw` of the table's `hant` entry.
   */
  lemma ScriptSubtagIgnored(language: string, script: string)
    requires language == "zh" && script == "Hant"
    ensures CountryFromTag(language + "-" + script) == "cn"
    ensures Lower(script) in LanguageToCountry && LanguageToCountry[Lower(script)] == "tw"
  {
    LowerZhHant(language, script);
    PrimarySubtagFallback(language, script);
  }

  /** The lower-cased pieces of `zh-Hant`. */
  lemma LowerZhHant(language: string, script: string)
    requires language == "zh" && script == "Hant"
    ensures Lower(language + "-" + script) == "zh-hant" && Lower(language) == "zh" && Lower(script) == "hant"
  {
    var tag := Lower(language + "-" + script);
    assert tag[0] == 'z' && tag[1] == 'h' && tag[2] == '-' && tag[3] == 'h';
    assert tag[4] == 'a' && tag[5] == 'n' && tag[6] == 't';
    var primary := Lower(language);
    assert primary[0] == 'z' && primary[1] == 'h';
    var lowScript := Lower(script);
    assert lowScript[0] == 'h' && lowScript[1] == 'a' && lowScript[2] == 'n' && lowScript[3] == 't';
  }

  /** A tag without `-` is looked up in the table, falling back to the default. */
  lemma SingleSubtagUsesTable(tag: string)
    requires '-' !in tag
    ensures CountryFromTag(tag) ==
      if Lower(tag) in LanguageToCountry then LanguageToCountry[Lower(tag)] else DefaultCountryCode
  {
    LowerKeepsSep(tag, '-');
    SplitNoSep(Lower(tag), '-');
  }

  // ---------------------------------------------------------------------------------------------
  // Version comparison

  predicate IsDigits(s: string) {
    s != "" && forall i :: 0 <= i < |s| ==> '0' <= s[i] <= '9'
  }

  /** The decimal value of a string of digits. */
  function DecimalValue(s: string): nat
    requires forall i :: 0 <= i < |s| ==> '0' <= s[i] <= '9'
    decreases |s|
  {
    if s == [] then 0 else 10 * DecimalValue(s[..|s| - 1]) + (s[|s| - 1] as int - '0' as int)
  }

  /** `Number(part) || 0`, for parts that are digits (any other part counts as 0). */
  function PartValue(part: string): nat {
    if IsDigits(part) then DecimalValue(part) else 0
  }

  /** `version.split('.').map(part => Number(part) || 0)`. */
  function ParseVersion(version: string): (parts: seq<nat>)
    ensures |parts| == |Split(version, '.')| >= 1
    ensures forall i :: 0 <= i < |parts| ==> parts[i] == PartValue(Split(version, '.')[i])
  {
    var pieces := Split(version, '.');
    seq(|pieces|, i requires 0 <= i < |pieces| => PartValue(pieces[i]))
  }

  /** The component at `i`, reading past the end as the padding zero. */
  function At(s: seq<nat>, i: nat): nat {
    if i < |s| then s[i] else 0
  }

  function Head(s: seq<nat>): nat { At(s, 0) }
  function Tail(s: seq<nat>): seq<nat> { if s == [] then [] else s[1..] }

  /**
   * Reference definition: `store` is a newer version than `current` when, reading both as if padded
   * with zeros, the first component where they differ is larger in `store`.
   */
  function Newer(store: seq<nat>, current: seq<nat>): bool
    decreases |store| + |current|
  {
    if store == [] && current == [] then false
    else if Head(store) > Head(current) then true
    else if Head(store) < Head(current) then false
    else Newer(Tail(store), Tail(current))
  }

  lemma AtTail(s: seq<nat>, i: nat)
    ensures At(Tail(s), i) == At(s, i + 1)
  {
  }

  /** `Newer` holds exactly when there is a first differing position and `store` is larger there. */
  lemma {:induction false} NewerAtFirstDifference(store: seq<nat>, current: seq<nat>)
    ensures Newer(store, current) <==>
      exists i: nat :: (forall j: nat :: j < i ==> At(store, j) == At(current, j)) && At(store, i) > At(current, i)
    decreases |store| + |current|
  {
    if Newer(store, current) {
      if Head(store) > Head(current) {
        assert At(store, 0) > At(current, 0);
      } else {
        NewerAtFirstDifference(Tail(store), Tail(current));
        var i: nat :| (forall j: nat :: j < i ==> At(Tail(store), j) == At(Tail(current), j))
                      && At(Tail(store), i) > At(Tail(current), i);
        AtTail(store, i);
        AtTail(current, i);
        forall j: nat | j < i + 1 ensures At(store, j) == At(current, j) {
          if j > 0 {
            AtTail(store, j - 1);
            AtTail(current, j - 1);
          }
        }
      }
    }
    if exists i: nat :: (forall j: nat :: j < i ==> At(store, j) == At(current, j)) && At(store, i) > At(current, i) {
      var i: nat :| (forall j: nat :: j < i ==> At(store, j) == At(current, j)) && At(store, i) > At(current, i);
      if i > 0 {
        assert At(store, 0) == At(current, 0);
        assert store != [] || current != [];
        forall j: nat | j < i - 1 ensures At(Tail(store), j) == At(Tail(current), j) {
          AtTail(store, j);
          AtTail(current, j);
        }
        AtTail(store, i - 1);
        AtTail(current, i - 1);
        NewerAtFirstDifference(Tail(store), Tail(current));
      }
    }
  }

  /** The comparison is asymmetric: two versions are never each newer than the other. */
  lemma {:induction false} NewerAsymmetric(a: seq<nat>, b: seq<nat>)
    ensures !(Newer(a, b) && Newer(b, a))
    decreases |a| + |b|
  {
    if !(a == [] && b == []) && Head(a) == Head(b) {
      NewerAsymmetric(Tail(a), Tail(b));
    }
  }

  /** Equal versions are not an update. */
  lemma {:induction false} NewerIrreflexive(a: seq<nat>)
    ensures !Newer(a, a)
    decreases |a|
  {
    if a != [] {
      NewerIrreflexive(Tail(a));
    }
  }

  /** A trailing zero on the store version never changes the result (`1.2` and `1.2.0` compare alike). */
  lemma {:induction false} NewerStorePadding(store: seq<nat>, current: seq<nat>)
    ensures Newer(store + [0], current) == Newer(store, current)
    decreases |store| + |current|
  {
    if store == [] {
      assert Tail([0]) == [];
      if current != [] {
        assert Newer([0], current) == (if 0 < Head(current) then false else Newer([], Tail(current)));
      }
    } else {
      assert Head(store + [0]) == Head(store);
      assert Tail(store + [0]) == Tail(store) + [0];
      NewerStorePadding(Tail(store), Tail(current));
    }
  }

  /** A trailing zero on the current version never changes the result. */
  lemma {:induction false} NewerCurrentPadding(store: seq<nat>, current: seq<nat>)
    ensures Newer(store, current + [0]) == Newer(store, current)
    decreases |store| + |current|
  {
    if current == [] {
      assert Tail([0]) == [];
      if store != [] {
        assert Newer(store, [0]) == (if Head(store) > 0 then true else Newer(Tail(store), []));
      }
    } else {
      assert Head(current + [0]) == Head(current);
      assert Tail(current + [0]) == Tail(current) + [0];
      NewerCurrentPadding(Tail(store), Tail(current));
    }
  }

  /**
   * The comparison inside `checkForUpdates`: split both versions, pad the shorter with zeros, then
   * walk the components and stop at the first difference.
   */
  method HasUpdate(currentVersion: string, storeVersion: string) returns (hasUpdate: bool)
    ensures hasUpdate == Newer(ParseVersion(storeVersion), ParseVersion(currentVersion))
  {
    var currentParts := ParseVersion(currentVersion);
    var storeParts := ParseVersion(storeVersion);
    ghost var goal := Newer(storeParts, currentParts);
    var maxLength := if |currentParts| >= |storeParts| then |currentParts| else |storeParts|;
    while |currentParts| < maxLength
      invariant |currentParts| <= maxLength
      invariant Newer(storeParts, currentParts) == goal
      decreases maxLength - |currentParts|
    {
      NewerCurrentPadding(storeParts, currentParts);
      currentParts := currentParts + [0];
    }
    while |storeParts| < maxLength
      invariant |storeParts| <= maxLength
      invariant Newer(storeParts, currentParts) == goal
      decreases maxLength - |storeParts|
    {
      NewerStorePadding(storeParts, currentParts);
      storeParts := storeParts + [0];
    }
    hasUpdate := false;
    var i := 0;
    while i < maxLength
      invariant 0 <= i <= maxLength
      invariant Newer(storeParts[i..], currentParts[i..]) == goal
      invariant !hasUpdate
    {
      assert Head(storeParts[i..]) == storeParts[i] && Head(currentParts[i..]) == currentParts[i];
      if storeParts[i] > currentParts[i] {
        hasUpdate := true;
        break;
      } else if storeParts[i] < currentParts[i] {
        break;
      }
      assert Tail(storeParts[i..]) == storeParts[i + 1..];
      assert Tail(currentParts[i..]) == currentParts[i + 1..];
      i := i + 1;
    }
  }
}

=== FILE: auto_update.dfy ===
/**
 * The automatic update check: a timer flag, the session's "user rejected" flag and the time of the
 * last check. The interval timer is a flag, each interval firing is a `Tick`, the clock is a
 * parameter (milliseconds) and the external version query is given as its answer.
 */
module AutoUpdate {
  import opened Wrappers
  import AppInfo

  /** Twelve hours, in milliseconds. */
  const CheckInterval: int := 12 * 60 * 60 * 1000

  /** The three module variables. */
  datatype Scheduler = Scheduler(timer: bool, rejected: bool, lastCheckTime: int)

  /** A transition's new state and whether it started a version query. */
  datatype Step = Step(next: Scheduler, queried: bool)

  /** What the version query would answer: the installed version, and the store's (`None` on failure). */
  datatype Answer = Answer(currentVersion: string, storeVersion: Option<string>)

  /** `checkUpdateAndShowDialog`: nothing once rejected; otherwise stamp the time and query. */
  function Check(s: Scheduler, now: int): (r: Step)
    ensures r.queried <==> !s.rejected
    ensures r.next.timer == s.timer && r.next.rejected == s.rejected
    ensures r.next.lastCheckTime == if s.rejected then s.lastCheckTime else now
  {
    if s.rejected then Step(s, false) else Step(s.(lastCheckTime := now), true)
  }

  /** `startAutoCheck`: a no-op with a timer or after rejection; else check if stale, then set the timer. */
  function Start(s: Scheduler, now: int): (r: Step)
    ensures s.timer || s.rejected ==> r == Step(s, false)
    ensures !s.timer && !s.rejected ==> r.next.timer && r.queried == (now - s.lastCheckTime > CheckInterval)
    ensures !s.timer && !s.rejected ==>
      r.next == Scheduler(true, false, if r.queried then now else s.lastCheckTime)
  {
    if s.timer || s.rejected then Step(s, false)
    else
      var c := if now - s.lastCheckTime > CheckInterval then Check(s, now) else Step(s, false);
      Step(c.next.(timer := true), c.queried)
  }

  /** `stopAutoCheck`. */
  function Stop(s: Scheduler): (r: Scheduler)
    ensures !r.timer && r.rejected == s.rejected && r.lastCheckTime == s.lastCheckTime
  {
    s.(timer := false)
  }

  /** One firing of the interval: stop once rejected, otherwise check. */
  function Tick(s: Scheduler, now: int): (r: Step)
    ensures s.rejected ==> r == Step(Stop(s), false)
    ensures !s.rejected ==> r == Check(s, now)
  {
    if s.rejected then Step(Stop(s), false) else Check(s, now)
  }

  /** `initAutoUpdate`: off native nothing; on native reset the flag and the time, then start. */
  function Init(s: Scheduler, isNative: bool, now: int): (r: Step)
    ensures !isNative ==> r == Step(s, false)
    ensures isNative ==> !r.next.rejected && r.next.timer
    ensures isNative && !s.timer ==>
      r.queried == (now > CheckInterval) && r.next == Scheduler(true, false, if now > CheckInterval then now else 0)
    ensures isNative && s.timer ==> r == Step(Scheduler(true, false, 0), false)
  {
    if !isNative then Step(s, false) else Start(Scheduler(s.timer, false, 0), now)
  }

  /** The cancel button of the update dialog: reject for the session and stop the timer. */
  function Cancel(s: Scheduler): (r: Scheduler)
    ensures r.rejected && !r.timer && r.lastCheckTime == s.lastCheckTime
  {
    Stop(s.(rejected := true))
  }

  /** Starting twice installs one timer: the second start changes nothing and queries nothing. */
  lemma StartIsIdempotent(s: Scheduler, now: nat, later: nat)
    ensures Start(Start(s, now).next, later) == Step(Start(s, now).next, false)
  {
  }

  /** The events that drive the scheduler. A tick only happens while a timer is installed. */
  datatype Event = StartCheck(now: int) | StopCheck | CheckNow(now: int) | Fire(now: int) | CancelUpdate

  /** Applies the events in order; the result's `queried` says whether any of them queried. */
  function Run(s: Scheduler, events: seq<Event>): Step
    decreases |events|
  {
    if events == [] then Step(s, false)
    else
      var r := Apply(s, events[0]);
      var rest := Run(r.next, events[1..]);
      Step(rest.next, r.queried || rest.queried)
  }

  function Apply(s: Scheduler, e: Event): Step {
    match e
    case StartCheck(now) => Start(s, now)
    case StopCheck => Step(Stop(s), false)
    case CheckNow(now) => Check(s, now)
    case Fire(now) => if s.timer then Tick(s, now) else Step(s, false)
    case CancelUpdate => Step(Cancel(s), false)
  }

  /**
   * After the user cancels, no later start, check or interval firing queries the store and no timer
   * is ever installed again in the session (only a new `initAutoUpdate` clears the rejection).
   */
  lemma {:induction false} RejectionIsFinal(s: Scheduler, events: seq<Event>)
    requires s.rejected && !s.timer
    ensures var r := Run(s, events); !r.queried && r.next.rejected && !r.next.timer
    decreases |events|
  {
    if events != [] {
      RejectionIsFinal(Apply(s, events[0]).next, events[1..]);
    }
  }

  /** Whether a query with this answer shows the update dialog. */
  function UpdateOffered(a: Answer): bool {
    a.storeVersion.Some? &&
    AppInfo.Newer(AppInfo.ParseVersion(a.storeVersion.value), AppInfo.ParseVersion(a.currentVersion))
  }

  /** The module variables of `autoUpdate.ts`. */
  class AutoUpdater {
    var timer: bool
    var rejected: bool
    var lastCheckTime: int

    function State(): Scheduler
      reads this
    {
      Scheduler(timer, rejected, lastCheckTime)
    }

    constructor ()
      ensures State() == Scheduler(false, false, 0)
    {
      timer, rejected, lastCheckTime := false, false, 0;
    }

    /** Returns whether the update dialog is shown. */
    method CheckUpdateAndShowDialog(now: int, answer: Answer) returns (offered: bool)
      modifies this
      ensures State() == Check(old(State()), now).next
      ensures offered == (Check(old(State()), now).queried && UpdateOffered(answer))
    {
      if rejected {
        return false;
      }
      lastCheckTime := now;
      if answer.storeVersion.None? {
        return false;
      }
      offered := AppInfo.HasUpdate(answer.currentVersion, answer.storeVersion.value);
    }

    method StartAutoCheck(now: int, answer: Answer) returns (offered: bool)
      modifies this
      ensures State() == Start(old(State()), now).next
      ensures offered == (Start(old(State()), now).queried && UpdateOffered(answer))
    {
      if timer {
        return false;
      }
      if rejected {
        return false;
      }
      offered := false;
      if now - lastCheckTime > CheckInterval {
        offered := CheckUpdateAndShowDialog(now, answer);
      }
      timer := true;
    }

    method StopAutoCheck()
      modifies this
      ensures State() == Stop(old(State()))
    {
      if timer {
        timer := false;
      }
    }

    /** The interval callback; the interval only fires while it is installed. */
    method OnInterval(now: int, answer: Answer) returns (offered: bool)
      requires timer
      modifies this
      ensures State() == Tick(old(State()), now).next
      ensures offered == (Tick(old(State()), now).queried && UpdateOffered(answer))
    {
      if rejected {
        StopAutoCheck();
        return false;
      }
      offered := CheckUpdateAndShowDialog(now, answer);
    }

    method InitAutoUpdate(isNative: bool, now: int, answer: Answer) returns (offered: bool)
      modifies this
      ensures State() == Init(old(State()), isNative, now).next
      ensures offered == (Init(old(State()), isNative, now).queried && UpdateOffered(answer))
    {
      if !isNative {
        return false;
      }
      rejected := false;
      lastCheckTime := 0;
      offered := StartAutoCheck(now, answer);
    }

    /** The cancel handler of the update dialog. */
    method CancelUpdate()
      modifies this
      ensures State() == Cancel(old(State()))
    {
      rejected := true;
      StopAutoCheck();
    }
  }
}

=== FILE: dialog.dfy ===
/**
 * Dialog instances and the dialog manager. A dialog is shown by appending it to `showList` and
 * recording it in `singleDialogMap` (by name, for singletons) or `dialogMap` (by uuid); closing it
 * undoes both and unregisters it from the event bus. The manager also holds the global registry of
 * dialog configurations. The awaited close guard is an input: `Close` receives the verdict a custom
 * guard resolves to, and the timers that delay the visible effects are left out.
 */
module Dialogs {
  import opened Wrappers
  import opened DialogConfig
  import PubSub

  /** The close guard: the built-in one resolves to `false`; a custom one is an opaque callback. */
  datatype Guard = DefaultGuard | CustomGuard(callback: nat)

  /** Whether a guard stops a close, given the verdict a custom guard resolves to. */
  function Blocks(guard: Guard, customVerdict: bool): (stop: bool)
    ensures guard.DefaultGuard? ==> !stop
    ensures guard.CustomGuard? ==> (stop <==> customVerdict)
  {
    guard.CustomGuard? && customVerdict
  }

  /** The dialogs among `ts` whose guard stops their close. */
  function Blocked(ts: seq<Dialog>, blocking: set<Dialog>): set<Dialog>
    reads ts`guard
  {
    set d | d in ts && Blocks(d.guard, d in blocking)
  }

  /** The uuids that closing the unblocked dialogs of `ts` forgets in `dialogMap`. */
  function ClosedUuids(ts: seq<Dialog>, blocked: set<Dialog>): set<string> {
    set d | d in ts && d !in blocked && !d.isSingle :: d.uuid
  }

  /** The names that closing the unblocked dialogs of `ts` forgets in `singleDialogMap`. */
  function ClosedNames(ts: seq<Dialog>, blocked: set<Dialog>): set<string> {
    set d | d in ts && d !in blocked && d.isSingle :: d.name
  }

  /** The bus scopes that closing the unblocked dialogs of `ts` unregisters. */
  function ClosedScopes(ts: seq<Dialog>, blocked: set<Dialog>, instScope: map<object, PubSub.ScopeId>): set<PubSub.ScopeId> {
    set d | d in ts && d !in blocked && d in instScope :: instScope[d]
  }

  /** Closing one more dialog adds at most its own uuid, name or scope. */
  lemma ClosedStep(ts: seq<Dialog>, blocked: set<Dialog>, instScope: map<object, PubSub.ScopeId>, i: nat)
    requires i < |ts|
    ensures ClosedUuids(ts[..i + 1], blocked)
      == ClosedUuids(ts[..i], blocked) + (if ts[i] !in blocked && !ts[i].isSingle then {ts[i].uuid} else {})
    ensures ClosedNames(ts[..i + 1], blocked)
      == ClosedNames(ts[..i], blocked) + (if ts[i] !in blocked && ts[i].isSingle then {ts[i].name} else {})
    ensures ClosedScopes(ts[..i + 1], blocked, instScope)
      == ClosedScopes(ts[..i], blocked, instScope) + (if ts[i] !in blocked && ts[i] in instScope then {instScope[ts[i]]} else {})
  {
    assert ts[..i + 1] == ts[..i] + [ts[i]];
  }

  /**
   * When every recorded dialog is on `showList` (as `show` and `close` keep it) and no guard blocks,
   * closing every dialog `closeAll` collects leaves both maps empty.
   */
  lemma {:induction false} ClosingAllEmptiesMaps(list: seq<Dialog>, dialogMap: map<string, Dialog>, singleDialogMap: map<string, Dialog>)
    requires forall u :: u in dialogMap ==> dialogMap[u].uuid == u && !dialogMap[u].isSingle && dialogMap[u] in list
    requires forall n :: n in singleDialogMap ==> singleDialogMap[n].name == n && singleDialogMap[n].isSingle && singleDialogMap[n] in list
    ensures dialogMap - ClosedUuids(Targets(list, dialogMap, singleDialogMap), {}) == map[]
    ensures singleDialogMap - ClosedNames(Targets(list, dialogMap, singleDialogMap), {}) == map[]
  {
    var ts := Targets(list, dialogMap, singleDialogMap);
    TargetsCoverRecordedDialogs(list, dialogMap, singleDialogMap);
    forall u | u in dialogMap
      ensures u in ClosedUuids(ts, {})
    {
      var d := dialogMap[u];
      assert d in ts;
    }
    forall n | n in singleDialogMap
      ensures n in ClosedNames(ts, {})
    {
      var d := singleDialogMap[n];
      assert d in ts;
    }
  }

  /** The index of the first dialog in `list` with the given uuid (`findIndex`). */
  function IndexOfUuid(list: seq<Dialog>, uuid: string): (r: Option<nat>)
    ensures r.Some? ==> r.value < |list| && list[r.value].uuid == uuid
    ensures r.Some? ==> forall j :: 0 <= j < r.value ==> list[j].uuid != uuid
    ensures r.None? ==> forall j :: 0 <= j < |list| ==> list[j].uuid != uuid
    decreases |list|
  {
    if list == [] then None
    else if list[0].uuid == uuid then Some(0)
    else
      match IndexOfUuid(list[1..], uuid)
      case None => None
      case Some(i) => Some(i + 1)
  }

  /** `showList` after `close` splices out the first entry with the given uuid, if there is one. */
  function WithoutFirstUuid(list: seq<Dialog>, uuid: string): (r: seq<Dialog>)
    ensures IndexOfUuid(list, uuid).None? ==> r == list
    ensures IndexOfUuid(list, uuid).Some? ==> |r| == |list| - 1 && multiset(r) + multiset{list[IndexOfUuid(list, uuid).value]} == multiset(list)
  {
    match IndexOfUuid(list, uuid)
    case None => list
    case Some(i) =>
      assert list == list[..i] + [list[i]] + list[i + 1..];
      list[..i] + list[i + 1..]
  }

  /**
   * Closing a dialog undoes the entry its `show` appended: when no earlier entry carries the same
   * uuid, splicing out the first match gives back the list as it was before the show.
   */
  lemma CloseUndoesShow(list: seq<Dialog>, d: Dialog)
    requires forall x :: x in list ==> x.uuid != d.uuid
    ensures WithoutFirstUuid(list + [d], d.uuid) == list
  {
    assert (list + [d])[|list|] == d;
    assert forall j :: 0 <= j < |list| ==> (list + [d])[j] == list[j];
    assert (list + [d])[..|list|] == list;
  }

  /** The dialogs `closeAll` closes for one popped entry: the one under its uuid, then the one under its name. */
  function TargetsOf(item: Dialog, dialogMap: map<string, Dialog>, singleDialogMap: map<string, Dialog>): seq<Dialog> {
    (if item.uuid in dialogMap then [dialogMap[item.uuid]] else [])
    + (if item.name in singleDialogMap then [singleDialogMap[item.name]] else [])
  }

  /** The dialogs `closeAll` closes when it pops every entry of `list`, last entry first. */
  function Targets(list: seq<Dialog>, dialogMap: map<string, Dialog>, singleDialogMap: map<string, Dialog>): (r: seq<Dialog>)
    ensures forall d :: d in r ==> d in dialogMap.Values || d in singleDialogMap.Values
    decreases |list|
  {
    if list == [] then []
    else TargetsOf(list[|list| - 1], dialogMap, singleDialogMap) + Targets(list[..|list| - 1], dialogMap, singleDialogMap)
  }

  /**
   * Every shown dialog that its map still records is among the dialogs `closeAll` closes: a plain
   * dialog through its uuid, a singleton through its name.
   */
  lemma {:induction false} TargetsCoverRecordedDialogs(list: seq<Dialog>, dialogMap: map<string, Dialog>, singleDialogMap: map<string, Dialog>)
    ensures forall d :: d in list && d.uuid in dialogMap && dialogMap[d.uuid] == d ==> d in Targets(list, dialogMap, singleDialogMap)
    ensures forall d :: d in list && d.name in singleDialogMap && singleDialogMap[d.name] == d ==> d in Targets(list, dialogMap, singleDialogMap)
    decreases |list|
  {
    if list != [] {
      var n := |list| - 1;
      TargetsCoverRecordedDialogs(list[..n], dialogMap, singleDialogMap);
      assert list == list[..n] + [list[n]];
      var r := Targets(list, dialogMap, singleDialogMap);
      assert r == TargetsOf(list[n], dialogMap, singleDialogMap) + Targets(list[..n], dialogMap, singleDialogMap);
      forall d | d in list
        ensures d.uuid in dialogMap && dialogMap[d.uuid] == d ==> d in r
        ensures d.name in singleDialogMap && singleDialogMap[d.name] == d ==> d in r
      {
        if d != list[n] {
          assert d in list[..n];
        }
      }
    }
  }

  /** A component instance that can carry local dialog registrations (`useDialog` sets them). */
  class Parent {
    var localDialog: Option<map<string, Entry>>
    /** The registrations its component type declares as `useDialogs`. */
    const useDialogs: Option<map<string, Entry>>

    constructor (useDialogs: Option<map<string, Entry>>)
      ensures this.useDialogs == useDialogs && localDialog == None
    {
      this.useDialogs := useDialogs;
      localDialog := None;
    }
  }

  /** The registrations a parent offers: its local ones and its type's, none without a parent. */
  function LocalRegistry(parent: Option<Parent>): Option<map<string, Entry>>
    reads if parent.Some? then {parent.value} else {}
  {
    if parent.Some? then parent.value.localDialog else None
  }

  function TypeRegistry(parent: Option<Parent>): Option<map<string, Entry>> {
    if parent.Some? then parent.value.useDialogs else None
  }

  class Dialog {
    const uuid: string
    const name: string
    const isSingle: bool
    const parent: Option<Parent>
    const manager: DialogManager
    /** The options given at construction (`cacheOpts`). */
    const cacheOpts: Opts
    /** The options of the registration (`componentRegisterOpts`). */
    const registerOpts: Opts
    const componentName: string
    const isLocal: bool
    /** The component to render, `None` when no registration matched. */
    const componentOptions: Option<Component>
    var props: Props
    var opts: Opts
    var isShowing: bool
    var guard: Guard

    /** The dialog holds what the resolution `r` of its configuration chose. */
    predicate ConfiguredBy(r: Resolution)
      reads this
    {
      && isLocal == r.isLocal && componentName == r.componentName && registerOpts == r.registerOpts
      && opts == r.opts && componentOptions == r.componentOptions
    }

    /**
     * Registers the new dialog on the bus and resolves its configuration from the parent's
     * registrations and the manager's global registry, as they are at construction.
     */
    constructor (isSingle: bool, parent: Option<Parent>, name: string, callOpts: Opts, uuid: string, manager: DialogManager)
      requires manager.bus.Valid()
      modifies manager.bus`nextScope, manager.bus`instScope, manager.bus`tables, manager.bus`scopeOrder
      ensures manager.bus.Valid()
      ensures this.uuid == uuid && this.name == name && this.isSingle == isSingle
      ensures this.parent == parent && this.manager == manager && cacheOpts == callOpts
      ensures ConfiguredBy(Resolve(old(LocalRegistry(parent)), TypeRegistry(parent), old(manager.globalDialogMap), name, callOpts))
      ensures props == map[] && !isShowing && guard == DefaultGuard
      ensures this in manager.bus.instScope && manager.bus.tables == old(manager.bus.tables)[manager.bus.instScope[this] := PubSub.EmptyTable]
      ensures manager.bus.RegisteredFresh(this)
    {
      var r := Resolve(LocalRegistry(parent), TypeRegistry(parent), manager.globalDialogMap, name, callOpts);
      this.uuid := uuid;
      this.name := name;
      this.isSingle := isSingle;
      this.parent := parent;
      this.manager := manager;
      cacheOpts := callOpts;
      registerOpts := r.registerOpts;
      componentName := r.componentName;
      isLocal := r.isLocal;
      componentOptions := r.componentOptions;
      props := map[];
      opts := r.opts;
      isShowing := false;
      guard := DefaultGuard;
      new;
      manager.bus.Register(this);
    }

    /**
     * Merges the props and options; a dialog already showing stops there. Otherwise it is recorded
     * under its name (singleton) or uuid, marked showing and appended to `showList`.
     */
    method Show(callProps: Props, callOpts: Opts)
      requires manager.Valid()
      modifies this`props, this`opts, this`isShowing
      modifies manager`dialogMap, manager`singleDialogMap, manager`showList
      ensures manager.Valid()
      ensures props == old(props) + callProps
      ensures opts == Merge(old(opts), registerOpts, cacheOpts, callOpts)
      ensures isShowing
      ensures old(isShowing) ==>
        manager.showList == old(manager.showList) && manager.dialogMap == old(manager.dialogMap)
        && manager.singleDialogMap == old(manager.singleDialogMap)
      ensures !old(isShowing) ==> manager.showList == old(manager.showList) + [this]
      ensures !old(isShowing) && isSingle ==>
        manager.singleDialogMap == old(manager.singleDialogMap)[name := this] && manager.dialogMap == old(manager.dialogMap)
      ensures !old(isShowing) && !isSingle ==>
        manager.dialogMap == old(manager.dialogMap)[uuid := this] && manager.singleDialogMap == old(manager.singleDialogMap)
    {
      props := props + callProps;
      opts := Merge(opts, registerOpts, cacheOpts, callOpts);
      if isShowing {
        return;
      }
      if isSingle {
        manager.singleDialogMap := manager.singleDialogMap[name := this];
      } else {
        manager.dialogMap := manager.dialogMap[uuid := this];
      }
      isShowing := true;
      manager.showList := manager.showList + [this];
    }

    /**
     * Closes the dialog unless its guard stops it: marks it hidden, splices its first entry out of
     * `showList`, unregisters it from the bus and forgets it under its name (singleton) or uuid.
     */
    method Close(customVerdict: bool)
      requires manager.Valid()
      modifies this`isShowing, manager`dialogMap, manager`singleDialogMap, manager`showList
      modifies manager.bus`tables, manager.bus`scopeOrder
      ensures manager.Valid()
      ensures Blocks(guard, customVerdict) ==>
        isShowing == old(isShowing) && manager.showList == old(manager.showList)
        && manager.dialogMap == old(manager.dialogMap) && manager.singleDialogMap == old(manager.singleDialogMap)
        && manager.bus.tables == old(manager.bus.tables) && manager.bus.scopeOrder == old(manager.bus.scopeOrder)
      ensures !Blocks(guard, customVerdict) ==>
        && !isShowing
        && manager.showList == WithoutFirstUuid(old(manager.showList), uuid)
        && (isSingle ==> manager.singleDialogMap == old(manager.singleDialogMap) - {name} && manager.dialogMap == old(manager.dialogMap))
        && (!isSingle ==> manager.dialogMap == old(manager.dialogMap) - {uuid} && manager.singleDialogMap == old(manager.singleDialogMap))
        && (this in manager.bus.instScope ==>
              manager.bus.tables == old(manager.bus.tables) - {manager.bus.instScope[this]}
              && manager.bus.scopeOrder == PubSub.Without(old(manager.bus.scopeOrder), manager.bus.instScope[this]))
        && (this !in manager.bus.instScope ==>
              manager.bus.tables == old(manager.bus.tables) && manager.bus.scopeOrder == old(manager.bus.scopeOrder))
    {
      if Blocks(guard, customVerdict) {
        return;
      }
      isShowing := false;
      manager.showList := WithoutFirstUuid(manager.showList, uuid);
      manager.bus.Unregister(this);
      if isSingle {
        manager.singleDialogMap := manager.singleDialogMap - {name};
      } else {
        manager.dialogMap := manager.dialogMap - {uuid};
      }
    }

    /** Replaces the close guard. */
    method BeforeClose(callback: nat)
      modifies this`guard
      ensures guard == CustomGuard(callback)
    {
      guard := CustomGuard(callback);
    }

    /** `on` scoped to this dialog; returns the dialog itself. */
    method On(ev: string, h: PubSub.Handler) returns (ok: bool, self: Dialog, replay: seq<PubSub.Call>)
      requires manager.bus.Valid()
      modifies manager.bus`tables, manager.bus`handlerId, manager.bus`pending
      ensures manager.bus.Valid()
      ensures self == this
      ensures manager.bus.once == old(manager.bus.once)
      ensures manager.bus.OnEffect(ev, h, Some(this), ok, replay)
    {
      ok, replay := manager.bus.On(ev, h, Some(this));
      self := this;
    }

    /** `off` scoped to this dialog; returns the dialog itself. */
    method Off(ev: string, h: PubSub.Handler) returns (ok: bool, self: Dialog)
      requires manager.bus.Valid()
      modifies manager.bus`tables
      ensures manager.bus.Valid()
      ensures self == this
      ensures h !in manager.bus.handlerId ==> ok && manager.bus.tables == PubSub.RemoveTypeEverywhere(old(manager.bus.tables), ev)
      ensures h in manager.bus.handlerId ==>
        && (ok <==> this in manager.bus.instScope && manager.bus.instScope[this] in old(manager.bus.tables))
        && (ok ==> var s := manager.bus.instScope[this];
              manager.bus.tables == old(manager.bus.tables)[s := PubSub.Unbind(old(manager.bus.tables)[s], ev, manager.bus.handlerId[h])])
        && (!ok ==> manager.bus.tables == old(manager.bus.tables))
    {
      ok := manager.bus.Off(ev, Some(h), Some(this));
      self := this;
    }

    /** `emit` delivered only to the handlers bound in this dialog's scope; returns the dialog itself. */
    method Emit(ev: string, args: PubSub.Args) returns (self: Dialog, calls: seq<PubSub.Call>)
      requires manager.bus.Valid()
      modifies manager.bus`tables
      ensures manager.bus.Valid()
      ensures self == this
      ensures this in manager.bus.instScope && manager.bus.instScope[this] in old(manager.bus.tables) ==>
        var s := manager.bus.instScope[this];
        calls == PubSub.CallsAt(old(manager.bus.tables), s, ev, args)
        && manager.bus.tables == old(manager.bus.tables)[s := PubSub.DropOnce(old(manager.bus.tables)[s], ev, manager.bus.once)]
      ensures !(this in manager.bus.instScope && manager.bus.instScope[this] in old(manager.bus.tables)) ==>
        calls == [] && manager.bus.tables == old(manager.bus.tables)
    {
      calls := manager.bus.EmitToInstance(ev, Some(this), args);
      self := this;
    }
  }

  class DialogManager {
    const bus: PubSub.EventBus
    /** Shown non-singleton dialogs by uuid. */
    var dialogMap: map<string, Dialog>
    /** Shown singleton dialogs by name. */
    var singleDialogMap: map<string, Dialog>
    /** The global registrations by name. */
    var globalDialogMap: map<string, Entry>
    /** The dialogs on screen, in the order they were shown. */
    var showList: seq<Dialog>

    /** Each map records its dialogs under their own uuid or name, and every dialog belongs here. */
    ghost predicate Valid()
      reads this, bus
    {
      && bus.Valid()
      && (forall u :: u in dialogMap ==> dialogMap[u].uuid == u && !dialogMap[u].isSingle && dialogMap[u].manager == this)
      && (forall n :: n in singleDialogMap ==> singleDialogMap[n].name == n && singleDialogMap[n].isSingle && singleDialogMap[n].manager == this)
      && (forall d :: d in showList ==> d.manager == this)
    }

    /** Starts with no dialog shown and the built-in `PhotoPreview` and `Confirm` registered. */
    constructor (bus: PubSub.EventBus, photoPreview: Component, confirm: Component)
      requires bus.Valid()
      ensures Valid() && this.bus == bus
      ensures dialogMap == map[] && singleDialogMap == map[] && showList == []
      ensures globalDialogMap == map["PhotoPreview" := Bare(photoPreview), "Confirm" := Bare(confirm)]
    {
      this.bus := bus;
      dialogMap := map[];
      singleDialogMap := map[];
      globalDialogMap := map[];
      showList := [];
      new;
      RegisterAll([("PhotoPreview", Bare(photoPreview)), ("Confirm", Bare(confirm))]);
    }

    /** `registerDialog`: inserts or replaces the global registration under `key`. */
    method RegisterDialog(key: string, entry: Entry)
      modifies this`globalDialogMap
      ensures globalDialogMap == old(globalDialogMap)[key := entry]
    {
      globalDialogMap := globalDialogMap[key := entry];
    }

    /** Registers the entries of a list in order, so a repeated key ends with its last entry. */
    method RegisterAll(list: seq<(string, Entry)>)
      modifies this`globalDialogMap
      ensures globalDialogMap == WithEntries(old(globalDialogMap), list)
    {
      for i := 0 to |list|
        invariant globalDialogMap == WithEntries(old(globalDialogMap), list[..i])
      {
        assert list[..i + 1][..i] == list[..i];
        RegisterDialog(list[i].0, list[i].1);
      }
      assert list[..|list|] == list;
    }

    /** `getInstance`: the shown non-singleton dialog with this uuid, if any. */
    function GetInstance(uuid: string): (r: Option<Dialog>)
      requires Valid()
      reads this, bus
      ensures r.Some? <==> uuid in dialogMap
      ensures r.Some? ==> r.value.uuid == uuid && !r.value.isSingle && r.value == dialogMap[uuid]
    {
      if uuid in dialogMap then Some(dialogMap[uuid]) else None
    }

    /** `get`: always a new non-singleton dialog, resolved in the caller's context. */
    method Get(parent: Option<Parent>, name: string, callOpts: Opts, uuid: string) returns (d: Dialog)
      requires Valid()
      modifies bus`nextScope, bus`instScope, bus`tables, bus`scopeOrder
      ensures Valid()
      ensures fresh(d) && !d.isSingle && d.name == name && d.uuid == uuid && d.parent == parent && d.manager == this
      ensures !d.isShowing && d.cacheOpts == callOpts
      ensures d.ConfiguredBy(Resolve(old(LocalRegistry(parent)), TypeRegistry(parent), globalDialogMap, name, callOpts))
      ensures bus.RegisteredFresh(d)
    {
      d := new Dialog(false, parent, name, callOpts, uuid, this);
    }

    /**
     * `getSingle`: the singleton recorded under `name` if there is one, the options then ignored;
     * otherwise a new singleton, which is recorded only once it is shown.
     */
    method GetSingle(parent: Option<Parent>, name: string, callOpts: Opts, uuid: string) returns (d: Dialog)
      requires Valid()
      modifies bus`nextScope, bus`instScope, bus`tables, bus`scopeOrder
      ensures Valid()
      ensures singleDialogMap == old(singleDialogMap)
      ensures name in singleDialogMap ==> d == singleDialogMap[name] && bus.tables == old(bus.tables)
      ensures name in singleDialogMap ==>
        bus.instScope == old(bus.instScope) && bus.nextScope == old(bus.nextScope) && bus.scopeOrder == old(bus.scopeOrder)
      ensures name !in singleDialogMap ==>
        fresh(d) && d.isSingle && d.name == name && d.uuid == uuid && d.parent == parent && d.manager == this && !d.isShowing
        && d.cacheOpts == callOpts
        && d.ConfiguredBy(Resolve(old(LocalRegistry(parent)), TypeRegistry(parent), globalDialogMap, name, callOpts))
        && bus.RegisteredFresh(d)
    {
      if name in singleDialogMap {
        d := singleDialogMap[name];
      } else {
        d := new Dialog(true, parent, name, callOpts, uuid, this);
      }
    }

    /** The first phase of `closeAll`: drains `showList`, collecting the dialogs to close. */
    method PopAll() returns (targets: seq<Dialog>)
      requires Valid()
      modifies this`showList
      ensures Valid() && showList == []
      ensures targets == Targets(old(showList), dialogMap, singleDialogMap)
    {
      targets := [];
      while |showList| > 0
        invariant Valid()
        invariant Targets(old(showList), dialogMap, singleDialogMap) == targets + Targets(showList, dialogMap, singleDialogMap)
        decreases |showList|
      {
        var item := showList[|showList| - 1];
        showList := showList[..|showList| - 1];
        targets := targets + TargetsOf(item, dialogMap, singleDialogMap);
      }
    }

    /**
     * Pops every entry of `showList`, last first, collecting the dialogs recorded under each entry's
     * uuid and name, then closes those in that order; the closes take effect after the list is
     * drained. `showList` ends empty whatever the guards decide; `blocking` holds the dialogs whose
     * custom guard resolves to `true`.
     */
    method CloseAll(blocking: set<Dialog>) returns (targets: seq<Dialog>)
      requires Valid()
      modifies this`showList, this`dialogMap, this`singleDialogMap, bus`tables, bus`scopeOrder
      modifies dialogMap.Values`isShowing, singleDialogMap.Values`isShowing
      ensures Valid()
      ensures showList == []
      ensures targets == Targets(old(showList), old(dialogMap), old(singleDialogMap))
      ensures forall d :: d in targets && !Blocks(d.guard, d in blocking) ==> !d.isShowing
      ensures forall d: Dialog :: old(allocated(d)) && (d !in targets || Blocks(d.guard, d in blocking)) ==> d.isShowing == old(d.isShowing)
      ensures var blocked := Blocked(targets, blocking);
        && dialogMap == old(dialogMap) - ClosedUuids(targets, blocked)
        && singleDialogMap == old(singleDialogMap) - ClosedNames(targets, blocked)
        && bus.tables == old(bus.tables) - ClosedScopes(targets, blocked, bus.instScope)
        && bus.scopeOrder == PubSub.WithoutAll(old(bus.scopeOrder), ClosedScopes(targets, blocked, bus.instScope))
      ensures blocking == {} && (forall d :: d in old(dialogMap).Values || d in old(singleDialogMap).Values ==> d in old(showList)) ==>
        dialogMap == map[] && singleDialogMap == map[]
    {
      ghost var listed := showList;
      targets := PopAll();
      CloseEach(targets, blocking);
      if blocking == {} && (forall d :: d in old(dialogMap).Values || d in old(singleDialogMap).Values ==> d in listed) {
        assert Blocked(targets, blocking) == {};
        ClosingAllEmptiesMaps(listed, old(dialogMap), old(singleDialogMap));
      }
    }

    /**
     * The second phase of `closeAll`: closes each collected dialog in turn. Every dialog whose guard
     * does not block is hidden and forgotten under its uuid or name, and its bus scope unregistered.
     */
    method CloseEach(targets: seq<Dialog>, blocking: set<Dialog>)
      requires Valid()
      requires forall d :: d in targets ==> d.manager == this
      requires showList == []
      modifies targets`isShowing, this`showList, this`dialogMap, this`singleDialogMap, bus`tables, bus`scopeOrder
      ensures Valid() && showList == []
      ensures forall d :: d in targets && !Blocks(d.guard, d in blocking) ==> !d.isShowing
      ensures forall d: Dialog :: old(allocated(d)) && (d !in targets || Blocks(d.guard, d in blocking)) ==> d.isShowing == old(d.isShowing)
      ensures var blocked := Blocked(targets, blocking);
        && dialogMap == old(dialogMap) - ClosedUuids(targets, blocked)
        && singleDialogMap == old(singleDialogMap) - ClosedNames(targets, blocked)
        && bus.tables == old(bus.tables) - ClosedScopes(targets, blocked, bus.instScope)
        && bus.scopeOrder == PubSub.WithoutAll(old(bus.scopeOrder), ClosedScopes(targets, blocked, bus.instScope))
    {
      ghost var blocked := Blocked(targets, blocking);
      PubSub.WithoutNothing(bus.scopeOrder);
      assert ClosedScopes(targets[..0], blocked, bus.instScope) == {};
      assert ClosedUuids(targets[..0], blocked) == {} && ClosedNames(targets[..0], blocked) == {};
      ghost var instScope := bus.instScope;
      ghost var dialogs, singles, tables, order := dialogMap, singleDialogMap, bus.tables, bus.scopeOrder;
      for i := 0 to |targets|
        invariant Valid() && showList == [] && bus.instScope == instScope
        invariant forall j :: 0 <= j < i && targets[j] !in blocked ==> !targets[j].isShowing
        invariant forall d: Dialog :: old(allocated(d)) && (d !in targets || d in blocked) ==> d.isShowing == old(d.isShowing)
        invariant Forgets(targets[..i], blocked, instScope, dialogs, singles, tables, order,
                          dialogMap, singleDialogMap, bus.tables, bus.scopeOrder)
      {
        CloseTarget(targets, blocking, blocked, instScope, i, dialogs, singles, tables, order);
      }
      assert targets[..|targets|] == targets;
      assert Blocked(targets, blocking) == blocked;
    }

    /** One step of `CloseEach`: closing `targets[i]` extends each forgotten set by that dialog alone. */
    method CloseTarget(targets: seq<Dialog>, blocking: set<Dialog>, ghost blocked: set<Dialog>, ghost instScope: map<object, PubSub.ScopeId>, i: nat,
                       ghost dialogs: map<string, Dialog>, ghost singles: map<string, Dialog>,
                       ghost tables: map<PubSub.ScopeId, PubSub.ScopeTable>, ghost order: seq<PubSub.ScopeId>)
      requires Valid() && showList == [] && bus.instScope == instScope
      requires i < |targets| && targets[i].manager == this
      requires targets[i] in blocked <==> Blocks(targets[i].guard, targets[i] in blocking)
      requires Forgets(targets[..i], blocked, instScope, dialogs, singles, tables, order,
                       dialogMap, singleDialogMap, bus.tables, bus.scopeOrder)
      modifies {targets[i]}`isShowing, this`showList, this`dialogMap, this`singleDialogMap, bus`tables, bus`scopeOrder
      ensures Valid() && showList == [] && bus.instScope == instScope
      ensures targets[i] !in blocked ==> !targets[i].isShowing
      ensures targets[i] in blocked ==> targets[i].isShowing == old(targets[i].isShowing)
      ensures Forgets(targets[..i + 1], blocked, instScope, dialogs, singles, tables, order,
                      dialogMap, singleDialogMap, bus.tables, bus.scopeOrder)
    {
      ghost var dm0, sm0, t0, o0 := dialogMap, singleDialogMap, bus.tables, bus.scopeOrder;
      targets[i].Close(targets[i] in blocking);
      CloseBookkeeping(targets, blocked, instScope, i, dialogs, singles, tables, order,
        dm0, sm0, t0, o0, dialogMap, singleDialogMap, bus.tables, bus.scopeOrder);
    }
  }

  /**
   * The maps `dm`, `sm`, the tables `t` and the order `o` are `dialogs`, `singles`, `tables` and
   * `order` with every dialog of `ts` that was not blocked forgotten.
   */
  ghost predicate Forgets(ts: seq<Dialog>, blocked: set<Dialog>, instScope: map<object, PubSub.ScopeId>,
                          dialogs: map<string, Dialog>, singles: map<string, Dialog>,
                          tables: map<PubSub.ScopeId, PubSub.ScopeTable>, order: seq<PubSub.ScopeId>,
                          dm: map<string, Dialog>, sm: map<string, Dialog>,
                          t: map<PubSub.ScopeId, PubSub.ScopeTable>, o: seq<PubSub.ScopeId>)
  {
    && dm == dialogs - ClosedUuids(ts, blocked)
    && sm == singles - ClosedNames(ts, blocked)
    && t == tables - ClosedScopes(ts, blocked, instScope)
    && o == PubSub.WithoutAll(order, ClosedScopes(ts, blocked, instScope))
  }

  /**
   * The value-level part of one `CloseEach` step: if the maps, tables and order before the close
   * forget the prefix `ts[..i]`, and the close of `ts[i]` does what `Close` promises, then afterwards
   * they forget `ts[..i + 1]`.
   */
  lemma CloseBookkeeping(ts: seq<Dialog>, blocked: set<Dialog>, instScope: map<object, PubSub.ScopeId>, i: nat,
                         dialogs: map<string, Dialog>, singles: map<string, Dialog>,
                         tables: map<PubSub.ScopeId, PubSub.ScopeTable>, order: seq<PubSub.ScopeId>,
                         dm0: map<string, Dialog>, sm0: map<string, Dialog>,
                         t0: map<PubSub.ScopeId, PubSub.ScopeTable>, o0: seq<PubSub.ScopeId>,
                         dm1: map<string, Dialog>, sm1: map<string, Dialog>,
                         t1: map<PubSub.ScopeId, PubSub.ScopeTable>, o1: seq<PubSub.ScopeId>)
    requires i < |ts|
    requires Forgets(ts[..i], blocked, instScope, dialogs, singles, tables, order, dm0, sm0, t0, o0)
    requires ts[i] in blocked ==> dm1 == dm0 && sm1 == sm0 && t1 == t0 && o1 == o0
    requires ts[i] !in blocked ==>
      && (ts[i].isSingle ==> sm1 == sm0 - {ts[i].name} && dm1 == dm0)
      && (!ts[i].isSingle ==> dm1 == dm0 - {ts[i].uuid} && sm1 == sm0)
      && (ts[i] in instScope ==> t1 == t0 - {instScope[ts[i]]} && o1 == PubSub.Without(o0, instScope[ts[i]]))
      && (ts[i] !in instScope ==> t1 == t0 && o1 == o0)
    ensures Forgets(ts[..i + 1], blocked, instScope, dialogs, singles, tables, order, dm1, sm1, t1, o1)
  {
    var d := ts[i];
    var scopes := ClosedScopes(ts[..i], blocked, instScope);
    ClosedStep(ts, blocked, instScope, i);
    if d in blocked {
      assert ClosedScopes(ts[..i + 1], blocked, instScope) == scopes;
    } else {
      if d.isSingle {
        MinusStep(singles, ClosedNames(ts[..i], blocked), d.name);
      } else {
        MinusStep(dialogs, ClosedUuids(ts[..i], blocked), d.uuid);
      }
      if d in instScope {
        MinusStep(tables, scopes, instScope[d]);
        PubSub.WithoutAllStep(order, scopes, instScope[d]);
      } else {
        assert ClosedScopes(ts[..i + 1], blocked, instScope) == scopes;
      }
    }
  }

  /** Forgetting keys one at a time is forgetting them together. */
  lemma MinusStep<K, V>(m: map<K, V>, gone: set<K>, k: K)
    ensures (m - gone) - {k} == m - (gone + {k})
  {
  }

  /** The registry after registering the entries of `list` in order. */
  function WithEntries(registry: map<string, Entry>, list: seq<(string, Entry)>): (r: map<string, Entry>)
    ensures forall k :: k in r <==> k in registry || exists i :: 0 <= i < |list| && list[i].0 == k
    decreases |list|
  {
    if list == [] then registry
    else
      var n := |list| - 1;
      assert forall i :: 0 <= i < n ==> list[..n][i] == list[i];
      WithEntries(registry, list[..n])[list[n].0 := list[n].1]
  }

  /** A key registered by the list holds its last entry. */
  lemma {:induction false} WithEntriesLastWins(registry: map<string, Entry>, list: seq<(string, Entry)>, i: nat)
    requires i < |list|
    requires forall j :: i < j < |list| ==> list[j].0 != list[i].0
    ensures WithEntries(registry, list)[list[i].0] == list[i].1
    decreases |list|
  {
    var n := |list| - 1;
    var prefix := list[..n];
    assert WithEntries(registry, list) == WithEntries(registry, prefix)[list[n].0 := list[n].1];
    if i < n {
      assert list[n].0 != list[i].0;
      assert prefix[i] == list[i];
      forall j | i < j < n ensures prefix[j].0 != prefix[i].0 {
        assert prefix[j] == list[j];
      }
      WithEntriesLastWins(registry, prefix, i);
    }
  }

  /** A key the list does not register keeps its old registration. */
  lemma {:induction false} WithEntriesKeepsOthers(registry: map<string, Entry>, list: seq<(string, Entry)>)
    ensures forall k :: k in registry && (forall i :: 0 <= i < |list| ==> list[i].0 != k) ==>
      WithEntries(registry, list)[k] == registry[k]
    decreases |list|
  {
    if list != [] {
      var n := |list| - 1;
      var prefix := list[..n];
      WithEntriesKeepsOthers(registry, prefix);
      forall k | k in registry && (forall i :: 0 <= i < |list| ==> list[i].0 != k)
        ensures WithEntries(registry, prefix)[k] == registry[k]
      {
        forall i | 0 <= i < n ensures prefix[i].0 != k {
          assert prefix[i] == list[i];
        }
      }
    }
  }

  /** `useDialog`: attaches the local registrations to the calling component, only when both exist. */
  method UseDialog(parent: Option<Parent>, localDialog: Option<map<string, Entry>>)
    modifies if parent.Some? then {parent.value} else {}
    ensures parent.Some? && localDialog.Some? ==> parent.value.localDialog == localDialog
    ensures parent.Some? && localDialog.None? ==> parent.value.localDialog == old(parent.value.localDialog)
  {
    if parent.Some? && localDialog.Some? {
      parent.value.localDialog := localDialog;
    }
  }
}

=== FILE: dialog_config.dfy ===
/**
 * Dialog options and registrations, and how a dialog resolves its configuration from them: the
 * parent component's local registrations first, then the parent type's `useDialogs`, then the global
 * registry. Options are records merged with `Object.assign`, where later sources win.
 */
module DialogConfig {
  import opened Wrappers

  /** A property or option value. */
  datatype Value = Bool(b: bool) | Str(s: string) | Num(n: int) | Ref(id: nat)

  type Opts = map<string, Value>
  type Props = map<string, Value>

  /** The options a dialog starts with. */
  const DefaultOpts: Opts := map[
    "maskClose" := Bool(true),
    "animName" := Str("bounce"),
    "maskAnimName" := Str("fade"),
    "maskBgColor" := Str("rgba(0, 0, 0, 0.8)")
  ]

  /**
   * A dialog component: an identity, its static `dialogOptions` and the value its
   * `props.dialogOptions.default()` returns, either of which may be missing.
   */
  datatype Component = Component(id: nat, dialogOptions: Option<Opts>, defaultDialogOptions: Option<Opts>)

  /** A registration: a bare component, or a configuration object wrapping one. */
  datatype Entry =
    | Bare(component: Component)
    | Configured(componentName: Option<string>, component: Component, opts: Option<Opts>)

  /**
   * `Object.assign(current, registerOpts, cacheOpts, callOpts)`, the merge `show` performs: each
   * source's keys are copied over the previous ones, so a later source wins.
   */
  function Merge(current: Opts, registerOpts: Opts, cacheOpts: Opts, callOpts: Opts): (r: Opts)
    ensures forall k :: k in r <==> k in current || k in registerOpts || k in cacheOpts || k in callOpts
  {
    current + registerOpts + cacheOpts + callOpts
  }

  /**
   * The merge ranks its sources: the call's options, then the cached ones, then the registration's,
   * then what was there before.
   */
  lemma MergePriority(current: Opts, registerOpts: Opts, cacheOpts: Opts, callOpts: Opts, k: string)
    ensures var r := Merge(current, registerOpts, cacheOpts, callOpts);
      && (k in callOpts ==> r[k] == callOpts[k])
      && (k !in callOpts && k in cacheOpts ==> r[k] == cacheOpts[k])
      && (k !in callOpts && k !in cacheOpts && k in registerOpts ==> r[k] == registerOpts[k])
      && (k !in callOpts && k !in cacheOpts && k !in registerOpts && k in current ==> r[k] == current[k])
  {
  }

  /** Merging the same options again changes nothing. */
  lemma MergeIdempotent(current: Opts, registerOpts: Opts, cacheOpts: Opts, callOpts: Opts)
    ensures var once := Merge(current, registerOpts, cacheOpts, callOpts);
      Merge(once, registerOpts, cacheOpts, callOpts) == once
  {
  }

  /** A registry lookup that may have no registry at all. */
  function Lookup(registry: Option<map<string, Entry>>, name: string): (r: Option<Entry>)
    ensures r.Some? <==> registry.Some? && name in registry.value
    ensures r.Some? ==> r.value == registry.value[name]
  {
    if registry.Some? && name in registry.value then Some(registry.value[name]) else None
  }

  /** What a dialog takes from its configuration when it is constructed. */
  datatype Resolution = Resolution(
    isLocal: bool,
    componentName: string,
    registerOpts: Opts,
    opts: Opts,
    componentOptions: Option<Component>)

  /** The registration options of a bare component: `default()`'s value, else `dialogOptions`, else empty. */
  function BareRegisterOpts(c: Component): Opts {
    if c.defaultDialogOptions.Some? then c.defaultDialogOptions.value
    else c.dialogOptions.GetOr(map[])
  }

  /** The registration options of a configuration: its `opts`, else the component's `dialogOptions`, else empty. */
  function ConfiguredRegisterOpts(e: Entry): Opts
    requires e.Configured?
  {
    if e.opts.Some? then e.opts.value else e.component.dialogOptions.GetOr(map[])
  }

  /** The resolution from a found registration; only a configuration merges options at construction. */
  function FromEntry(e: Entry, isLocal: bool, name: string, cacheOpts: Opts): Resolution {
    match e
    case Bare(c) => Resolution(isLocal, name, BareRegisterOpts(c), DefaultOpts, Some(e.component))
    case Configured(componentName, c, _) =>
      var registerOpts := ConfiguredRegisterOpts(e);
      Resolution(
        isLocal,
        if componentName.Some? && componentName.value != "" then componentName.value else name,
        registerOpts,
        Merge(DefaultOpts, registerOpts, cacheOpts, cacheOpts),
        Some(c))
  }

  /**
   * The constructor's configuration lookup for `name`, with the construction options `cacheOpts`:
   * the parent's local registrations, then its type's `useDialogs`, then the global registry.
   */
  function Resolve(localDialog: Option<map<string, Entry>>, useDialogs: Option<map<string, Entry>>,
                   global: map<string, Entry>, name: string, cacheOpts: Opts): (r: Resolution)
    ensures r.isLocal <==> Lookup(localDialog, name).Some? || Lookup(useDialogs, name).Some?
    ensures r.componentOptions.None? <==>
      Lookup(localDialog, name).None? && Lookup(useDialogs, name).None? && name !in global
    ensures r.componentOptions.None? ==> r == Resolution(false, name, map[], DefaultOpts, None)
  {
    var local := Lookup(localDialog, name);
    var typed := Lookup(useDialogs, name);
    if local.Some? then FromEntry(local.value, true, name, cacheOpts)
    else if typed.Some? then FromEntry(typed.value, true, name, cacheOpts)
    else if name in global then FromEntry(global[name], false, name, cacheOpts)
    else Resolution(false, name, map[], DefaultOpts, None)
  }

  /** The registration a lookup settles on: the first of the three registries that has the name. */
  function Chosen(localDialog: Option<map<string, Entry>>, useDialogs: Option<map<string, Entry>>,
                  global: map<string, Entry>, name: string): Option<Entry>
  {
    if Lookup(localDialog, name).Some? then Lookup(localDialog, name)
    else if Lookup(useDialogs, name).Some? then Lookup(useDialogs, name)
    else if name in global then Some(global[name])
    else None
  }

  /**
   * What the dialog takes from the chosen registration: its component, the component name (a
   * configuration's non-empty `componentName`, else the dialog's name), its registration options,
   * and for a configuration the options merged at once with priority construction options, then
   * registration options, then the defaults; a bare component leaves the defaults for `show` to merge.
   */
  lemma ResolutionFollowsChosenEntry(localDialog: Option<map<string, Entry>>, useDialogs: Option<map<string, Entry>>,
                                     global: map<string, Entry>, name: string, cacheOpts: Opts, k: string)
    requires Chosen(localDialog, useDialogs, global, name).Some?
    ensures var e := Chosen(localDialog, useDialogs, global, name).value;
      var r := Resolve(localDialog, useDialogs, global, name, cacheOpts);
      && r.componentOptions == Some(e.component)
      && (e.Bare? ==> r.componentName == name && r.registerOpts == BareRegisterOpts(e.component) && r.opts == DefaultOpts)
      && (e.Configured? ==>
        && r.componentName == (if e.componentName.Some? && e.componentName.value != "" then e.componentName.value else name)
        && r.registerOpts == ConfiguredRegisterOpts(e)
        && (k in cacheOpts ==> r.opts[k] == cacheOpts[k])
        && (k !in cacheOpts && k in r.registerOpts ==> r.opts[k] == r.registerOpts[k])
        && (k !in cacheOpts && k !in r.registerOpts ==> (k in r.opts <==> k in DefaultOpts))
        && (k !in cacheOpts && k !in r.registerOpts && k in DefaultOpts ==> r.opts[k] == DefaultOpts[k]))
  {
    var e := Chosen(localDialog, useDialogs, global, name).value;
    if e.Configured? {
      MergePriority(DefaultOpts, ConfiguredRegisterOpts(e), cacheOpts, cacheOpts, k);
    }
  }

  /** A local registration shadows `useDialogs` and the global registry entirely. */
  lemma LocalShadowsOtherRegistries(localDialog: Option<map<string, Entry>>, useDialogs: Option<map<string, Entry>>,
                                    global: map<string, Entry>, useDialogs': Option<map<string, Entry>>,
                                    global': map<string, Entry>, name: string, cacheOpts: Opts)
    requires Lookup(localDialog, name).Some?
    ensures Resolve(localDialog, useDialogs, global, name, cacheOpts) == Resolve(localDialog, useDialogs', global', name, cacheOpts)
  {
  }

  /** A `useDialogs` registration shadows the global registry. */
  lemma TypeRegistryShadowsGlobal(localDialog: Option<map<string, Entry>>, useDialogs: Option<map<string, Entry>>,
                                  global: map<string, Entry>, global': map<string, Entry>, name: string, cacheOpts: Opts)
    requires Lookup(useDialogs, name).Some?
    ensures Resolve(localDialog, useDialogs, global, name, cacheOpts) == Resolve(localDialog, useDialogs, global', name, cacheOpts)
  {
  }
}

=== FILE: event_bus.dfy ===
/**
 * The scoped publish/subscribe registry. Every registered instance owns a scope: a table from event
 * type to the handlers bound in it, keyed by the handler's id. Scope 0 is the global scope.
 * Handlers are opaque references; a call to a handler is recorded in the returned trace instead of
 * being run. The ids the source stamps on instance and handler objects are maps on the bus.
 */
module PubSub {
  import opened Wrappers

  /** A scope id; `GlobalScope` is the scope of handlers bound without an instance. */
  type ScopeId = nat
  const GlobalScope: ScopeId := 0

  /** The identity of a handler function object. */
  type Handler = nat

  /** The arguments of an emission. */
  type Args = seq<int>

  /** One handler invocation: the scope and slot it was bound in, the handler and its arguments. */
  datatype Call = Call(scope: ScopeId, slot: nat, handler: Handler, args: Args)

  /** A scope's table: its handler-id counter and, per event type, the handlers by slot. */
  datatype ScopeTable = ScopeTable(counter: nat, types: map<string, map<nat, Handler>>)

  /** The table `register` installs: counter 1, no handlers. */
  const EmptyTable: ScopeTable := ScopeTable(1, map[])

  predicate NoDup<T(==)>(xs: seq<T>) {
    forall i, j :: 0 <= i < j < |xs| ==> xs[i] != xs[j]
  }

  // ---------------------------------------------------------------------------------------------
  // Key order. A handler table's keys are integer-like, and JavaScript enumerates those in ascending
  // numeric order, so the handlers of one scope run in ascending slot order.

  predicate IsMin(m: nat, s: set<nat>) {
    m in s && forall x :: x in s ==> m <= x
  }

  lemma {:induction false} MinExists(s: set<nat>)
    requires s != {}
    ensures exists m :: IsMin(m, s)
    decreases |s|
  {
    var x :| x in s;
    if s == {x} {
      assert IsMin(x, s);
    } else {
      MinExists(s - {x});
      var m :| IsMin(m, s - {x});
      var r := if x < m then x else m;
      forall y | y in s
        ensures r <= y
      {
        if y != x {
          assert y in s - {x};
        }
      }
      assert IsMin(r, s);
    }
  }

  lemma MinUnique(s: set<nat>)
    ensures forall m, m' :: IsMin(m, s) && IsMin(m', s) ==> m == m'
  {
  }

  /** The keys of a handler table in enumeration (ascending) order. */
  function SortedKeys(s: set<nat>): (r: seq<nat>)
    ensures forall x :: x in r <==> x in s
    ensures forall i, j :: 0 <= i < j < |r| ==> r[i] < r[j]
    decreases |s|
  {
    if s == {} then []
    else
      MinExists(s);
      MinUnique(s);
      var m :| IsMin(m, s);
      [m] + SortedKeys(s - {m})
  }

  /** The calls one scope's handler table receives for one emission: its handlers in slot order. */
  function ScopeCalls(scope: ScopeId, cache: map<nat, Handler>, args: Args): seq<Call> {
    var ks := SortedKeys(cache.Keys);
    seq(|ks|, j requires 0 <= j < |ks| => Call(scope, ks[j], cache[ks[j]], args))
  }

  /** The calls scope `s` receives when `ev` is emitted. */
  ghost function CallsAt(tables: map<ScopeId, ScopeTable>, s: ScopeId, ev: string, args: Args): seq<Call> {
    if s in tables && ev in tables[s].types then ScopeCalls(s, tables[s].types[ev], args) else []
  }

  /** The trace of an emission of `ev` over the scopes in `order`, scope after scope. */
  ghost function Trace(order: seq<ScopeId>, tables: map<ScopeId, ScopeTable>, ev: string, args: Args): seq<Call>
    decreases |order|
  {
    if order == [] then []
    else Trace(order[..|order| - 1], tables, ev, args) + CallsAt(tables, order[|order| - 1], ev, args)
  }

  /** A call that matches a binding: handler `c.handler` sits at slot `c.slot` for `ev` in scope `c.scope`. */
  ghost predicate IsBinding(tables: map<ScopeId, ScopeTable>, ev: string, c: Call) {
    c.scope in tables && ev in tables[c.scope].types && c.slot in tables[c.scope].types[ev]
    && tables[c.scope].types[ev][c.slot] == c.handler
  }

  // ---------------------------------------------------------------------------------------------
  // Table updates

  /** The handlers of `cache` that survive an emission cut short after the slots in `seen`. */
  function KeptExcept(cache: map<nat, Handler>, once: set<Handler>, seen: set<nat>): map<nat, Handler> {
    map k | k in cache && (k !in seen || cache[k] !in once) :: cache[k]
  }

  lemma KeptStep(cache: map<nat, Handler>, once: set<Handler>, seen: set<nat>, k: nat)
    requires k in cache
    ensures KeptExcept(cache, once, seen + {k}) ==
      if cache[k] in once then KeptExcept(cache, once, seen) - {k} else KeptExcept(cache, once, seen)
  {
  }

  /** The handlers of `cache` that are not one-shot. */
  function Kept(cache: map<nat, Handler>, once: set<Handler>): (r: map<nat, Handler>)
    ensures forall k :: k in r <==> k in cache && cache[k] !in once
    ensures forall k :: k in r ==> r[k] == cache[k]
  {
    KeptExcept(cache, once, cache.Keys)
  }

  /** A scope's table after an emission of `ev`: one-shot handlers unbound, an emptied type dropped. */
  function DropOnce(t: ScopeTable, ev: string, once: set<Handler>): ScopeTable {
    if ev !in t.types then t
    else
      var kept := Kept(t.types[ev], once);
      if kept == map[] then t.(types := t.types - {ev}) else t.(types := t.types[ev := kept])
  }

  function DropOnceAll(tables: map<ScopeId, ScopeTable>, ev: string, once: set<Handler>): map<ScopeId, ScopeTable> {
    map s | s in tables :: DropOnce(tables[s], ev, once)
  }

  /** Binds `h` at slot `id` for `ev`, overwriting whatever sat in that slot. */
  function Bind(t: ScopeTable, ev: string, id: nat, h: Handler): (r: ScopeTable)
    ensures r.counter == t.counter
    ensures ev in r.types && id in r.types[ev] && r.types[ev][id] == h
    ensures forall k :: k != id ==> (k in r.types[ev] <==> ev in t.types && k in t.types[ev])
    ensures forall k :: k != id && k in r.types[ev] ==> r.types[ev][k] == t.types[ev][k]
    ensures forall ty :: ty != ev ==> (ty in r.types <==> ty in t.types)
    ensures forall ty :: ty != ev && ty in r.types ==> r.types[ty] == t.types[ty]
  {
    var cache := if ev in t.types then t.types[ev] else map[];
    t.(types := t.types[ev := cache[id := h]])
  }

  /** Removes slot `id` for `ev`, dropping the type once it has no handler. */
  function Unbind(t: ScopeTable, ev: string, id: nat): (r: ScopeTable)
    ensures r.counter == t.counter
    ensures ev in r.types <==> ev in t.types && exists k :: k in t.types[ev] && k != id
    ensures ev in r.types ==> id !in r.types[ev] && r.types[ev] != map[]
    ensures ev in r.types ==> forall k :: k != id ==> (k in r.types[ev] <==> k in t.types[ev])
    ensures ev in r.types ==> forall k :: k in r.types[ev] ==> r.types[ev][k] == t.types[ev][k]
    ensures forall ty :: ty != ev ==> (ty in r.types <==> ty in t.types)
    ensures forall ty :: ty != ev && ty in r.types ==> r.types[ty] == t.types[ty]
  {
    var cache := (if ev in t.types then t.types[ev] else map[]) - {id};
    assert ev in t.types ==> forall k :: k in t.types[ev] && k != id ==> k in cache;
    if cache == map[] then t.(types := t.types - {ev}) else t.(types := t.types[ev := cache])
  }

  /** `off` without a handler: the type leaves every scope; scopes, counters and other types stay. */
  function RemoveTypeEverywhere(tables: map<ScopeId, ScopeTable>, ev: string): (r: map<ScopeId, ScopeTable>)
    ensures r.Keys == tables.Keys
    ensures forall s :: s in r ==> ev !in r[s].types && r[s].counter == tables[s].counter
    ensures forall s, ty :: s in r && ty != ev ==> (ty in r[s].types <==> ty in tables[s].types)
    ensures forall s, ty :: s in r && ty != ev && ty in r[s].types ==> r[s].types[ty] == tables[s].types[ty]
  {
    map s | s in tables :: tables[s].(types := tables[s].types - {ev})
  }

  /** `xs` without `x`, order kept. */
  function Without(xs: seq<ScopeId>, x: ScopeId): (r: seq<ScopeId>)
    ensures forall y :: y in r <==> y in xs && y != x
    ensures NoDup(xs) ==> NoDup(r)
    decreases |xs|
  {
    if xs == [] then []
    else
      var rest := Without(xs[1..], x);
      assert NoDup(xs) ==> NoDup(xs[1..]) && xs[0] !in xs[1..];
      if xs[0] == x then rest else [xs[0]] + rest
  }

  /** `xs` without any scope of `gone`, order kept: the visiting order after several `unregister`s. */
  function WithoutAll(xs: seq<ScopeId>, gone: set<ScopeId>): (r: seq<ScopeId>)
    ensures forall y :: y in r <==> y in xs && y !in gone
    decreases |xs|
  {
    if xs == [] then []
    else (if xs[0] in gone then [] else [xs[0]]) + WithoutAll(xs[1..], gone)
  }

  /** Removing nothing keeps the order as it is. */
  lemma {:induction false} WithoutNothing(xs: seq<ScopeId>)
    ensures WithoutAll(xs, {}) == xs
    decreases |xs|
  {
    if xs != [] {
      WithoutNothing(xs[1..]);
      assert xs == [xs[0]] + xs[1..];
    }
  }

  /** Removing scopes one at a time, as successive `unregister`s do, removes them all at once. */
  lemma {:induction false} WithoutAllStep(xs: seq<ScopeId>, gone: set<ScopeId>, x: ScopeId)
    ensures Without(WithoutAll(xs, gone), x) == WithoutAll(xs, gone + {x})
    decreases |xs|
  {
    if xs != [] {
      var rest := WithoutAll(xs[1..], gone);
      var restAfter := WithoutAll(xs[1..], gone + {x});
      WithoutAllStep(xs[1..], gone, x);
      assert Without(rest, x) == restAfter;
      if xs[0] in gone {
        assert WithoutAll(xs, gone) == rest;
        assert WithoutAll(xs, gone + {x}) == restAfter;
      } else {
        var w := [xs[0]] + rest;
        assert WithoutAll(xs, gone) == w;
        assert w[0] == xs[0] && w[1..] == rest;
        if xs[0] == x {
          assert Without(w, x) == Without(rest, x);
          assert WithoutAll(xs, gone + {x}) == restAfter;
        } else {
          assert Without(w, x) == [xs[0]] + Without(rest, x);
          assert WithoutAll(xs, gone + {x}) == [xs[0]] + restAfter;
        }
      }
    }
  }

  /** The scope `on` binds in: the instance's scope, or the global one when it has no id. */
  function OnScope(instScope: map<object, ScopeId>, inst: Option<object>): ScopeId {
    if inst.Some? && inst.value in instScope then instScope[inst.value] else GlobalScope
  }

  /** The scope `off` unbinds in: global without an instance, `None` for an instance without an id. */
  function OffScope(instScope: map<object, ScopeId>, inst: Option<object>): Option<ScopeId> {
    if inst.None? then Some(GlobalScope)
    else if inst.value in instScope then Some(instScope[inst.value])
    else None
  }

  /** Every handler in a table sits at the slot of its own id, and no type is left without a handler. */
  ghost predicate TableOk(t: ScopeTable, handlerId: map<Handler, nat>) {
    forall ty :: ty in t.types ==>
      t.types[ty] != map[] &&
      forall k :: k in t.types[ty] ==> t.types[ty][k] in handlerId && handlerId[t.types[ty][k]] == k
  }

  /**
   * The scopes: the global one always has a table, `order` lists the live ones once each, and every
   * instance has its own id below the counter.
   */
  ghost predicate ScopesOk(nextScope: nat, order: seq<ScopeId>, live: set<ScopeId>, instScope: map<object, ScopeId>) {
    && GlobalScope in live
    && NoDup(order)
    && (forall s :: s in order <==> s in live)
    && (forall s :: s in live ==> s < nextScope)
    && (forall o :: o in instScope ==> 0 < instScope[o] < nextScope)
    && (forall o, o' :: o in instScope && o' in instScope && o != o' ==> instScope[o] != instScope[o'])
  }

  /** The handler ids after `h` is bound in a scope whose counter is `counter`: stamped if it had none. */
  function Stamped(handlerId: map<Handler, nat>, h: Handler, counter: nat): (r: map<Handler, nat>)
    ensures h in r
  {
    if h in handlerId then handlerId else handlerId[h := counter]
  }

  /** A scope's table after `on` binds `h` there: a new id consumes the counter, the slot is the id. */
  function Subscribed(t: ScopeTable, handlerId: map<Handler, nat>, ev: string, h: Handler): ScopeTable {
    Bind(if h in handlerId then t else t.(counter := t.counter + 1), ev, Stamped(handlerId, h, t.counter)[h], h)
  }

  ghost predicate TablesOk(tables: map<ScopeId, ScopeTable>, handlerId: map<Handler, nat>) {
    forall s :: s in tables ==> TableOk(tables[s], handlerId)
  }

  lemma DropOnceAllOk(tables: map<ScopeId, ScopeTable>, handlerId: map<Handler, nat>, ev: string, once: set<Handler>)
    requires TablesOk(tables, handlerId)
    ensures DropOnceAll(tables, ev, once).Keys == tables.Keys
    ensures TablesOk(DropOnceAll(tables, ev, once), handlerId)
  {
    forall s | s in tables
      ensures TableOk(DropOnce(tables[s], ev, once), handlerId)
    {
      var t := tables[s];
      if ev in t.types {
        var kept := Kept(t.types[ev], once);
        forall k | k in kept
          ensures kept[k] in handlerId && handlerId[kept[k]] == k
        {
          assert k in t.types[ev];
        }
      }
    }
  }

  lemma BindOk(t: ScopeTable, handlerId: map<Handler, nat>, ev: string, h: Handler)
    requires TableOk(t, handlerId) && h in handlerId
    ensures TableOk(Bind(t, ev, handlerId[h], h), handlerId)
  {
    var cache := if ev in t.types then t.types[ev] else map[];
    var bound := cache[handlerId[h] := h];
    var r := Bind(t, ev, handlerId[h], h);
    assert r.types == t.types[ev := bound];
    forall ty | ty in r.types
      ensures r.types[ty] != map[]
      ensures forall k :: k in r.types[ty] ==> r.types[ty][k] in handlerId && handlerId[r.types[ty][k]] == k
    {
      if ty == ev {
        assert handlerId[h] in bound;
        forall k | k in bound
          ensures bound[k] in handlerId && handlerId[bound[k]] == k
        {
          if k != handlerId[h] {
            assert k in t.types[ev];
          }
        }
      } else {
        assert r.types[ty] == t.types[ty];
      }
    }
  }

  lemma UnbindOk(t: ScopeTable, handlerId: map<Handler, nat>, ev: string, id: nat)
    requires TableOk(t, handlerId)
    ensures TableOk(Unbind(t, ev, id), handlerId)
  {
  }

  lemma StampOk(tables: map<ScopeId, ScopeTable>, handlerId: map<Handler, nat>, h: Handler, id: nat)
    requires TablesOk(tables, handlerId) && h !in handlerId
    ensures TablesOk(tables, handlerId[h := id])
  {
    forall s, ty, k | s in tables && ty in tables[s].types && k in tables[s].types[ty]
      ensures tables[s].types[ty][k] != h
    {
      assert TableOk(tables[s], handlerId);
    }
  }

  /** The tables part-way through an emission: the scopes in `done` have lost their one-shot handlers. */
  ghost function DropOnceOn(tables: map<ScopeId, ScopeTable>, done: set<ScopeId>, ev: string, once: set<Handler>): map<ScopeId, ScopeTable> {
    map s | s in tables :: if s in done then DropOnce(tables[s], ev, once) else tables[s]
  }

  /** The tables part-way through removing `ev` everywhere. */
  ghost function RemoveTypeOn(tables: map<ScopeId, ScopeTable>, done: set<ScopeId>, ev: string): map<ScopeId, ScopeTable> {
    map s | s in tables :: if s in done then tables[s].(types := tables[s].types - {ev}) else tables[s]
  }

  lemma DropOnceOnStep(tables: map<ScopeId, ScopeTable>, done: set<ScopeId>, ev: string, once: set<Handler>, s: ScopeId)
    requires s in tables && s !in done
    ensures DropOnceOn(tables, done + {s}, ev, once) == DropOnceOn(tables, done, ev, once)[s := DropOnce(tables[s], ev, once)]
  {
  }

  lemma DropOnceOnAll(tables: map<ScopeId, ScopeTable>, ev: string, once: set<Handler>)
    ensures DropOnceOn(tables, tables.Keys, ev, once) == DropOnceAll(tables, ev, once)
  {
  }

  lemma RemoveTypeOnStep(tables: map<ScopeId, ScopeTable>, done: set<ScopeId>, ev: string, s: ScopeId)
    requires s in tables && s !in done
    ensures RemoveTypeOn(tables, done + {s}, ev) == RemoveTypeOn(tables, done, ev)[s := tables[s].(types := tables[s].types - {ev})]
  {
  }

  lemma RemoveTypeOnAll(tables: map<ScopeId, ScopeTable>, handlerId: map<Handler, nat>, ev: string)
    requires TablesOk(tables, handlerId)
    ensures RemoveTypeOn(tables, tables.Keys, ev) == RemoveTypeEverywhere(tables, ev)
    ensures RemoveTypeEverywhere(tables, ev).Keys == tables.Keys
    ensures TablesOk(RemoveTypeEverywhere(tables, ev), handlerId)
  {
    forall s | s in tables
      ensures TableOk(tables[s].(types := tables[s].types - {ev}), handlerId)
    {
      assert TableOk(tables[s], handlerId);
    }
  }

  lemma TraceStep(order: seq<ScopeId>, i: nat, tables: map<ScopeId, ScopeTable>, ev: string, args: Args)
    requires i < |order|
    ensures Trace(order[..i + 1], tables, ev, args) == Trace(order[..i], tables, ev, args) + CallsAt(tables, order[i], ev, args)
  {
    assert order[..i + 1][..i] == order[..i];
  }

  lemma NotYetVisited(order: seq<ScopeId>, i: nat, done: set<ScopeId>)
    requires NoDup(order) && i < |order|
    requires forall s :: s in done ==> s in order[..i]
    ensures order[i] !in done
  {
    assert forall j :: 0 <= j < i ==> order[j] != order[i];
    assert order[i] !in order[..i];
  }

  /**
   * Runs the handlers of one scope's table for `ev` in slot order and returns the calls, with the
   * table left after unbinding the one-shot handlers (each is unbound before it is called).
   */
  method DeliverInScope(s: ScopeId, cache: map<nat, Handler>, once: set<Handler>, args: Args) returns (calls: seq<Call>, kept: map<nat, Handler>)
    ensures calls == ScopeCalls(s, cache, args)
    ensures kept == Kept(cache, once)
  {
    var ks := SortedKeys(cache.Keys);
    calls := [];
    kept := cache;
    ghost var seen: set<nat> := {};
    for i := 0 to |ks|
      invariant |calls| == i
      invariant forall j :: 0 <= j < i ==> calls[j] == Call(s, ks[j], cache[ks[j]], args)
      invariant forall j :: 0 <= j < i ==> ks[j] in seen
      invariant seen <= cache.Keys
      invariant kept == KeptExcept(cache, once, seen)
    {
      KeptStep(cache, once, seen, ks[i]);
      seen := seen + {ks[i]};
      var h := cache[ks[i]];
      if h in once {
        kept := kept - {ks[i]};
      }
      calls := calls + [Call(s, ks[i], h, args)];
    }
    assert cache.Keys == seen;
  }

  // ---------------------------------------------------------------------------------------------
  // What an emission delivers

  /** One scope's calls: exactly its bindings for the type, each once. */
  lemma ScopeCallsExactlyBindings(s: ScopeId, cache: map<nat, Handler>, args: Args)
    ensures forall c :: c in ScopeCalls(s, cache, args) <==>
      c.scope == s && c.slot in cache && c.handler == cache[c.slot] && c.args == args
    ensures NoDup(ScopeCalls(s, cache, args))
  {
    var ks := SortedKeys(cache.Keys);
    var r := ScopeCalls(s, cache, args);
    forall c: Call | c.scope == s && c.slot in cache && c.handler == cache[c.slot] && c.args == args
      ensures c in r
    {
      var j :| 0 <= j < |ks| && ks[j] == c.slot;
      assert r[j] == c;
    }
  }

  lemma NoDupConcat<T>(a: seq<T>, b: seq<T>)
    requires NoDup(a) && NoDup(b)
    requires forall x :: x in a ==> x !in b
    ensures NoDup(a + b)
  {
    forall i, j | 0 <= i < j < |a + b|
      ensures (a + b)[i] != (a + b)[j]
    {
      if i < |a| && j >= |a| {
        assert (a + b)[i] in a;
        assert (a + b)[j] in b;
      }
    }
  }

  /**
   * An emission over scopes listed once each calls exactly the bindings of the type in those scopes,
   * each one once, with the emitted arguments.
   */
  lemma {:induction false} TraceIsBindings(order: seq<ScopeId>, tables: map<ScopeId, ScopeTable>, ev: string, args: Args)
    requires NoDup(order)
    ensures forall c :: c in Trace(order, tables, ev, args) <==>
      c.scope in order && IsBinding(tables, ev, c) && c.args == args
    ensures NoDup(Trace(order, tables, ev, args))
    decreases |order|
  {
    if order != [] {
      var n := |order| - 1;
      var pre := order[..n];
      var s := order[n];
      assert order == pre + [s];
      assert NoDup(pre);
      assert s !in pre;
      TraceIsBindings(pre, tables, ev, args);
      var t := Trace(pre, tables, ev, args);
      var last := CallsAt(tables, s, ev, args);
      assert Trace(order, tables, ev, args) == t + last;
      if s in tables && ev in tables[s].types {
        ScopeCallsExactlyBindings(s, tables[s].types[ev], args);
      }
      forall c: Call | c in t
        ensures c !in last
      {
        assert c.scope in pre;
      }
      NoDupConcat(t, last);
    }
  }

  /** After an emission, the type's bindings are the old ones minus those of one-shot handlers. */
  lemma DropOnceAllBindings(tables: map<ScopeId, ScopeTable>, ev: string, once: set<Handler>, c: Call)
    ensures IsBinding(DropOnceAll(tables, ev, once), ev, c) <==> IsBinding(tables, ev, c) && c.handler !in once
  {
  }

  /**
   * A one-shot handler is called by at most one emission: the next emission of the same type, over
   * the tables the first one left, calls no one-shot handler at all.
   */
  lemma OnceHandlersNotCalledAgain(order: seq<ScopeId>, tables: map<ScopeId, ScopeTable>, ev: string, once: set<Handler>, args: Args)
    requires NoDup(order)
    ensures forall c :: c in Trace(order, DropOnceAll(tables, ev, once), ev, args) ==> c.handler !in once
  {
    TraceIsBindings(order, DropOnceAll(tables, ev, once), ev, args);
    forall c | c in Trace(order, DropOnceAll(tables, ev, once), ev, args)
      ensures c.handler !in once
    {
      DropOnceAllBindings(tables, ev, once, c);
    }
  }

  /**
   * A sticky emission nobody received reaches the next subscriber: the replay `on` makes over the
   * tables with the new binding includes a call to the new handler with the kept arguments.
   */
  lemma LateSubscriberReceivesReplay(order: seq<ScopeId>, tables: map<ScopeId, ScopeTable>, handlerId: map<Handler, nat>,
                                     s: ScopeId, ev: string, h: Handler, args: Args)
    requires NoDup(order) && s in order && s in tables
    ensures Call(s, Stamped(handlerId, h, tables[s].counter)[h], h, args)
      in Trace(order, tables[s := Subscribed(tables[s], handlerId, ev, h)], ev, args)
  {
    var bound := tables[s := Subscribed(tables[s], handlerId, ev, h)];
    TraceIsBindings(order, bound, ev, args);
    assert IsBinding(bound, ev, Call(s, Stamped(handlerId, h, tables[s].counter)[h], h, args));
  }

  /** Scopes without a table, such as an unregistered instance's, receive nothing from an emission. */
  lemma NoCallsWithoutTable(order: seq<ScopeId>, tables: map<ScopeId, ScopeTable>, ev: string, args: Args, s: ScopeId)
    requires NoDup(order) && s !in tables
    ensures forall c :: c in Trace(order, tables, ev, args) ==> c.scope != s
  {
    TraceIsBindings(order, tables, ev, args);
  }

  class EventBus {
    /** The counter that numbers scopes (`pubSubCache.$$vuuid`). */
    var nextScope: nat
    /** The live scopes in the order their tables were created (the key order of `pubSubCache`). */
    var scopeOrder: seq<ScopeId>
    var tables: map<ScopeId, ScopeTable>
    /** The scope id stamped on each registered instance. */
    var instScope: map<object, ScopeId>
    /** The id stamped on each handler that has ever been bound. */
    var handlerId: map<Handler, nat>
    /** The handlers marked one-shot. */
    var once: set<Handler>
    /** The sticky slot: per type, the arguments of an emission nobody received (`messageCache`). */
    var pending: map<string, Args>

    ghost predicate Valid()
      reads this
    {
      ScopesOk(nextScope, scopeOrder, tables.Keys, instScope) && TablesOk(tables, handlerId)
    }

    constructor ()
      ensures Valid()
      ensures scopeOrder == [GlobalScope] && tables == map[GlobalScope := EmptyTable]
      ensures instScope == map[] && handlerId == map[] && once == {} && pending == map[]
    {
      nextScope := 1;
      scopeOrder := [GlobalScope];
      tables := map[GlobalScope := EmptyTable];
      instScope := map[];
      handlerId := map[];
      once := {};
      pending := map[];
    }

    /**
     * Gives `inst` a fresh scope id unless it already has one, then installs an empty table for that
     * scope, so registering again keeps the id but drops every handler bound in it.
     */
    /**
     * The bus after `register` of an instance it had not stamped: the instance takes the next id,
     * every other instance keeps its own, and the new scope gets an empty table at the end of the
     * visiting order.
     */
    twostate predicate RegisteredFresh(new inst: object)
      reads this
    {
      && instScope == old(instScope)[inst := old(nextScope)]
      && nextScope == old(nextScope) + 1
      && scopeOrder == old(scopeOrder) + [old(nextScope)]
      && tables == old(tables)[old(nextScope) := EmptyTable]
    }

    method Register(inst: object)
      requires Valid()
      modifies this`nextScope, this`instScope, this`tables, this`scopeOrder
      ensures Valid()
      ensures inst in old(instScope) ==> instScope == old(instScope) && nextScope == old(nextScope)
      ensures inst !in old(instScope) ==>
        instScope == old(instScope)[inst := old(nextScope)] && nextScope == old(nextScope) + 1
      ensures forall o :: o in instScope && o != inst ==> instScope[o] != instScope[inst]
      ensures tables == old(tables)[instScope[inst] := EmptyTable]
      ensures scopeOrder ==
        if instScope[inst] in old(tables) then old(scopeOrder) else old(scopeOrder) + [instScope[inst]]
    {
      if inst !in instScope {
        instScope := instScope[inst := nextScope];
        nextScope := nextScope + 1;
      }
      var s := instScope[inst];
      if s !in tables {
        scopeOrder := scopeOrder + [s];
      }
      tables := tables[s := EmptyTable];
    }

    /** Deletes the instance's scope table; an instance without an id changes nothing. */
    method Unregister(inst: object)
      requires Valid()
      modifies this`tables, this`scopeOrder
      ensures Valid()
      ensures inst in instScope ==>
        tables == old(tables) - {instScope[inst]} && scopeOrder == Without(old(scopeOrder), instScope[inst])
      ensures inst !in instScope ==> tables == old(tables) && scopeOrder == old(scopeOrder)
    {
      if inst in instScope {
        var s := instScope[inst];
        tables := tables - {s};
        scopeOrder := Without(scopeOrder, s);
      }
    }

    /** Delivers `args` to the handlers bound to `ev` in scope `s`, which has a table. */
    method EmitInScope(s: ScopeId, ev: string, args: Args) returns (calls: seq<Call>)
      requires s in tables
      modifies this`tables
      ensures calls == CallsAt(old(tables), s, ev, args)
      ensures tables == old(tables)[s := DropOnce(old(tables)[s], ev, once)]
    {
      calls := [];
      var t := tables[s];
      if ev in t.types {
        var kept;
        calls, kept := DeliverInScope(s, t.types[ev], once, args);
        tables := tables[s := if kept == map[] then t.(types := t.types - {ev}) else t.(types := t.types[ev := kept])];
      }
    }

    /** Delivers `args` to every handler bound to `ev`, scope after scope in creation order. */
    method Emit(ev: string, args: Args) returns (calls: seq<Call>)
      requires Valid()
      modifies this`tables
      ensures Valid()
      ensures calls == Trace(scopeOrder, old(tables), ev, args)
      ensures tables == DropOnceAll(old(tables), ev, once)
    {
      calls := EmitInOrder(ev, args);
      DropOnceAllOk(old(tables), handlerId, ev, once);
    }

    /** The loop of `Emit`: visits the live scopes in creation order. */
    method EmitInOrder(ev: string, args: Args) returns (calls: seq<Call>)
      requires NoDup(scopeOrder) && forall s :: s in scopeOrder <==> s in tables
      modifies this`tables
      ensures calls == Trace(scopeOrder, old(tables), ev, args)
      ensures tables == DropOnceAll(old(tables), ev, once)
    {
      calls := [];
      ghost var done: set<ScopeId> := {};
      for i := 0 to |scopeOrder|
        invariant calls == Trace(scopeOrder[..i], old(tables), ev, args)
        invariant tables == DropOnceOn(old(tables), done, ev, once)
        invariant forall j :: 0 <= j < i ==> scopeOrder[j] in done
        invariant forall s :: s in done ==> s in scopeOrder[..i]
      {
        var s := scopeOrder[i];
        TraceStep(scopeOrder, i, old(tables), ev, args);
        NotYetVisited(scopeOrder, i, done);
        DropOnceOnStep(old(tables), done, ev, once, s);
        assert tables[s] == old(tables)[s];
        var c := EmitInScope(s, ev, args);
        calls := calls + c;
        done := done + {s};
      }
      assert scopeOrder[..|scopeOrder|] == scopeOrder;
      assert done == old(tables).Keys;
      DropOnceOnAll(old(tables), ev, once);
    }

    /** Delivers `args` only to the handlers bound to `ev` in `inst`'s scope; a no-op without one. */
    method EmitToInstance(ev: string, inst: Option<object>, args: Args) returns (calls: seq<Call>)
      requires Valid()
      modifies this`tables
      ensures Valid()
      ensures inst.Some? && inst.value in instScope && instScope[inst.value] in old(tables) ==>
        var s := instScope[inst.value];
        calls == CallsAt(old(tables), s, ev, args) && tables == old(tables)[s := DropOnce(old(tables)[s], ev, once)]
      ensures !(inst.Some? && inst.value in instScope && instScope[inst.value] in old(tables)) ==>
        calls == [] && tables == old(tables)
    {
      calls := [];
      if inst.None? || inst.value !in instScope || instScope[inst.value] !in tables {
        return;
      }
      calls := EmitInScope(instScope[inst.value], ev, args);
      DropOnceAllOk(old(tables), handlerId, ev, once);
      assert tables[instScope[inst.value]] == DropOnceAll(old(tables), ev, once)[instScope[inst.value]];
    }

    /**
     * Like `Emit`; an emission that reached nobody is kept for `ev` (replacing an older one), and one
     * that reached a handler discards whatever was kept.
     */
    method StickyEmit(ev: string, args: Args) returns (calls: seq<Call>)
      requires Valid()
      modifies this`tables, this`pending
      ensures Valid()
      ensures calls == Trace(scopeOrder, old(tables), ev, args)
      ensures tables == DropOnceAll(old(tables), ev, once)
      ensures pending == if calls == [] then old(pending)[ev := args] else old(pending) - {ev}
    {
      calls := Emit(ev, args);
      if calls == [] {
        pending := pending[ev := args];
      } else {
        pending := pending - {ev};
      }
    }

    /** `checkMessage`: replays a kept emission of `ev` to all its current handlers, then forgets it. */
    method CheckMessage(ev: string) returns (replay: seq<Call>)
      requires Valid()
      modifies this`tables, this`pending
      ensures Valid()
      ensures ev in old(pending) ==>
        replay == Trace(scopeOrder, old(tables), ev, old(pending)[ev])
        && tables == DropOnceAll(old(tables), ev, once) && pending == old(pending) - {ev}
      ensures ev !in old(pending) ==> replay == [] && tables == old(tables) && pending == old(pending)
    {
      replay := [];
      if ev in pending {
        replay := Emit(ev, pending[ev]);
        pending := pending - {ev};
      }
    }

    /** Binds `h` to `ev` in scope `s`, stamping it with that scope's next id if it has none. */
    method Subscribe(s: ScopeId, ev: string, h: Handler)
      requires Valid() && s in tables
      modifies this`tables, this`handlerId
      ensures Valid()
      ensures handlerId == Stamped(old(handlerId), h, old(tables)[s].counter)
      ensures tables == old(tables)[s := Subscribed(old(tables)[s], old(handlerId), ev, h)]
    {
      var t := tables[s];
      if h !in handlerId {
        StampOk(tables, handlerId, h, t.counter);
        handlerId := handlerId[h := t.counter];
        t := t.(counter := t.counter + 1);
        assert TableOk(t, handlerId);
      }
      BindOk(t, handlerId, ev, h);
      tables := tables[s := Bind(t, ev, handlerId[h], h)];
    }

    /**
     * What `on` does to the bus, apart from the `once` marks: the binding, the stamp and the replay of
     * a pending message, in which the handlers marked `once` by then are dropped after their call.
     */
    twostate predicate OnEffect(ev: string, h: Handler, inst: Option<object>, ok: bool, replay: seq<Call>)
      reads this
    {
      var s := OnScope(instScope, inst);
      && instScope == old(instScope) && scopeOrder == old(scopeOrder)
      && (ok <==> s in old(tables))
      && (!ok ==> tables == old(tables) && handlerId == old(handlerId) && pending == old(pending) && replay == [])
      && (ok ==>
        && handlerId == Stamped(old(handlerId), h, old(tables)[s].counter)
        && var bound := old(tables)[s := Subscribed(old(tables)[s], old(handlerId), ev, h)];
           if ev in old(pending) then
             replay == Trace(scopeOrder, bound, ev, old(pending)[ev])
             && tables == DropOnceAll(bound, ev, once) && pending == old(pending) - {ev}
           else
             replay == [] && tables == bound && pending == old(pending))
    }

    /**
     * Binds `h` to `ev` in `inst`'s scope (global when `inst` is absent or has no id), then replays a
     * kept sticky emission of `ev`. Fails (`ok == false`, the source throws) when that scope has no
     * table, e.g. after `Unregister`.
     */
    method On(ev: string, h: Handler, inst: Option<object>) returns (ok: bool, replay: seq<Call>)
      requires Valid()
      modifies this`tables, this`handlerId, this`pending
      ensures Valid()
      ensures once == old(once)
      ensures OnEffect(ev, h, inst, ok, replay)
    {
      var s := OnScope(instScope, inst);
      if s !in tables {
        return false, [];
      }
      Subscribe(s, ev, h);
      ok := true;
      replay := CheckMessage(ev);
    }

    /** Marks `h` one-shot (for good: the mark stays on the handler), then binds it like `On`. */
    method Once(ev: string, h: Handler, inst: Option<object>) returns (ok: bool, replay: seq<Call>)
      requires Valid()
      modifies this`once, this`tables, this`handlerId, this`pending
      ensures Valid()
      ensures once == old(once) + {h}
      ensures OnEffect(ev, h, inst, ok, replay)
      ensures OnScope(instScope, inst) in old(tables) <==> ok
      ensures ok && ev !in old(pending) ==>
        var s := OnScope(instScope, inst);
        s in tables && ev in tables[s].types && h in handlerId && handlerId[h] in tables[s].types[ev]
        && tables[s].types[ev][handlerId[h]] == h
    {
      once := once + {h};
      ok, replay := On(ev, h, inst);
    }

    /** The loop of `Off` without a handler: drops `ev` from every live scope. */
    method RemoveInOrder(ev: string)
      requires NoDup(scopeOrder) && forall s :: s in scopeOrder <==> s in tables
      modifies this`tables
      ensures tables == RemoveTypeOn(old(tables), old(tables).Keys, ev)
    {
      ghost var done: set<ScopeId> := {};
      for i := 0 to |scopeOrder|
        invariant tables == RemoveTypeOn(old(tables), done, ev)
        invariant forall j :: 0 <= j < i ==> scopeOrder[j] in done
        invariant forall s :: s in done ==> s in scopeOrder[..i]
      {
        var s := scopeOrder[i];
        NotYetVisited(scopeOrder, i, done);
        RemoveTypeOnStep(old(tables), done, ev, s);
        assert scopeOrder[..i + 1] == scopeOrder[..i] + [s];
        tables := tables[s := tables[s].(types := tables[s].types - {ev})];
        done := done + {s};
      }
      assert done == old(tables).Keys;
    }

    /**
     * Without a handler, or with one that was never bound, removes `ev` from every scope. Otherwise
     * frees the handler's slot in the given scope (global without an instance) and drops the type when
     * it is left empty; fails (the source throws) when that scope has no table.
     */
    method Off(ev: string, h: Option<Handler>, inst: Option<object>) returns (ok: bool)
      requires Valid()
      modifies this`tables
      ensures Valid()
      ensures h.None? || h.value !in handlerId ==> ok && tables == RemoveTypeEverywhere(old(tables), ev)
      ensures h.Some? && h.value in handlerId ==>
        var s := OffScope(instScope, inst);
        && (ok <==> s.Some? && s.value in old(tables))
        && (ok ==> tables == old(tables)[s.value := Unbind(old(tables)[s.value], ev, handlerId[h.value])])
        && (!ok ==> tables == old(tables))
    {
      if h.None? || h.value !in handlerId {
        RemoveInOrder(ev);
        RemoveTypeOnAll(old(tables), handlerId, ev);
        return true;
      }
      var s := OffScope(instScope, inst);
      if s.None? || s.value !in tables {
        return false;
      }
      UnbindOk(tables[s.value], handlerId, ev, handlerId[h.value]);
      tables := tables[s.value := Unbind(tables[s.value], ev, handlerId[h.value])];
      ok := true;
    }
  }
}

=== FILE: navigation.dfy ===
/**
 * The navigation manager: which router action (if any) each navigation request becomes.
 * The router itself is external; `hasRouter` records whether `init` has supplied one.
 */
module Navigation {
  import opened Wrappers

  /** A raw route location: a string, or an object that may carry a route name. */
  datatype Route = Path(path: string) | Location(name: Option<string>)

  /** The router call a navigation request issues. */
  datatype Action = Stay | Replace(route: Route) | Push(route: Route) | Back

  /** A configured tab: its icon and the name of its route. */
  datatype TabItem = TabItem(icon: string, routeName: string)

  /** The default tab bar. */
  const DefaultTabs: seq<TabItem> := [TabItem("home", "home"), TabItem("person", "profile")]

  /** The route names of the tab pages, in tab order. */
  function TabPageNames(tabs: seq<TabItem>): (names: seq<string>)
    ensures |names| == |tabs|
    ensures forall i :: 0 <= i < |tabs| ==> names[i] == tabs[i].routeName
  {
    if tabs == [] then [] else [tabs[0].routeName] + TabPageNames(tabs[1..])
  }

  /** `isTabPage`: membership among the configured tab routes. */
  function IsTabPage(routeName: string): (b: bool)
    ensures b <==> routeName == "home" || routeName == "profile"
  {
    routeName in TabPageNames(DefaultTabs)
  }

  /** `getRouteName`: a string route is its own name; an object route yields its `name`, if any. */
  function RouteName(route: Route): (name: Option<string>)
    ensures route.Path? ==> name == Some(route.path)
    ensures route.Location? ==> name == route.name
  {
    match route
    case Path(p) => Some(p)
    case Location(n) => n
  }

  /** The route names a tab page. */
  predicate TargetsTab(route: Route) {
    RouteName(route).Some? && IsTabPage(RouteName(route).value)
  }

  class NavigationManager {
    var hasRouter: bool

    constructor ()
      ensures !hasRouter
    {
      hasRouter := false;
    }

    method Init()
      modifies this
      ensures hasRouter
    {
      hasRouter := true;
    }

    /** Replaces the current page with a tab page; anything that is not a tab page is refused. */
    method SwitchTab(route: Route) returns (action: Action)
      ensures action != Stay <==> hasRouter && TargetsTab(route)
      ensures action != Stay ==> action == Replace(route)
    {
      if !hasRouter {
        return Stay;
      }
      var targetName := RouteName(route);
      if targetName.None? || targetName.value == "" || !IsTabPage(targetName.value) {
        return Stay;
      }
      return Replace(route);
    }

    /** Pushes a page; a tab page is switched to instead. */
    method NavigateTo(route: Route) returns (action: Action)
      ensures !hasRouter ==> action == Stay
      ensures hasRouter && TargetsTab(route) ==> action == Replace(route)
      ensures hasRouter && !TargetsTab(route) ==> action == Push(route)
    {
      if !hasRouter {
        return Stay;
      }
      var targetName := RouteName(route);
      if targetName.Some? && targetName.value != "" && IsTabPage(targetName.value) {
        action := SwitchTab(route);
        return;
      }
      return Push(route);
    }

    /** Goes back, except from a tab page. `currentName` is the router's current route name. */
    method NavigateBack(currentName: Option<string>) returns (action: Action)
      ensures action == Back <==> hasRouter && !(currentName.Some? && IsTabPage(currentName.value))
      ensures action == Stay || action == Back
    {
      if !hasRouter {
        return Stay;
      }
      if currentName.Some? && IsTabPage(currentName.value) {
        return Stay;
      }
      return Back;
    }

    /** Replaces the current page with any route. */
    method RedirectTo(route: Route) returns (action: Action)
      ensures hasRouter ==> action == Replace(route)
      ensures !hasRouter ==> action == Stay
    {
      if !hasRouter {
        return Stay;
      }
      return Replace(route);
    }
  }
}

=== FILE: scope_counter.dfy ===
/**
 * The scope counter of the event bus as the source initialises it. The counter slot starts out
 * holding an object rather than the number 1, so `++` on it yields NaN, and NaN is what every
 * registered instance is stamped with. This module models just enough of JavaScript numbers to
 * show that, next to the corrected counter that the event bus model uses.
 */
module ScopeCounter {
  import opened Wrappers

  /** A JavaScript number, as far as the counter needs one. */
  datatype JsNumber = Finite(n: int) | NaN

  /** What the counter slot holds: the object it is initialised with, or a number. */
  datatype CounterSlot = ObjectSlot | NumberSlot(v: JsNumber)

  /** The numeric conversion `++` applies: an ordinary object converts to NaN. */
  function ToNumber(slot: CounterSlot): (v: JsNumber)
    ensures slot.ObjectSlot? ==> v.NaN?
  {
    match slot
    case ObjectSlot => NaN
    case NumberSlot(v) => v
  }

  /** `slot++`: yields the old value as a number and stores that value plus one. */
  function PostIncrement(slot: CounterSlot): (r: (JsNumber, CounterSlot))
    ensures r.0 == ToNumber(slot)
    ensures r.0.Finite? ==> r.1 == NumberSlot(Finite(r.0.n + 1))
    ensures r.0.NaN? ==> r.1 == NumberSlot(NaN)
  {
    var v := ToNumber(slot);
    (v, NumberSlot(if v.NaN? then NaN else Finite(v.n + 1)))
  }

  /** JavaScript truthiness of a number: NaN and 0 are falsy. */
  predicate Truthy(v: JsNumber) {
    v.Finite? && v.n != 0
  }

  /** `register`'s stamp as written: keep a truthy id, otherwise take the counter's next value. */
  function StampAsWritten(own: Option<JsNumber>, slot: CounterSlot): (r: (JsNumber, CounterSlot))
    ensures own.Some? && Truthy(own.value) ==> r == (own.value, slot)
    ensures !(own.Some? && Truthy(own.value)) ==> r == PostIncrement(slot)
  {
    if own.Some? && Truthy(own.value) then (own.value, slot) else PostIncrement(slot)
  }

  /** The ids `k` fresh instances receive, in registration order, and the counter afterwards. */
  function RegisterFreshAsWritten(k: nat, slot: CounterSlot): (r: (seq<JsNumber>, CounterSlot))
    ensures |r.0| == k
    decreases k
  {
    if k == 0 then ([], slot)
    else
      var (id, next) := StampAsWritten(None, slot);
      var (rest, last) := RegisterFreshAsWritten(k - 1, next);
      ([id] + rest, last)
  }

  /**
   * As written, every instance is stamped NaN, so all instances share one scope table, and
   * registering an instance that already has its NaN stamp consumes the counter again instead of
   * keeping the stamp.
   */
  lemma {:induction false} AsWrittenEveryInstanceGetsNaN(k: nat, slot: CounterSlot)
    requires slot == ObjectSlot || slot == NumberSlot(NaN)
    ensures forall i :: 0 <= i < k ==> RegisterFreshAsWritten(k, slot).0[i] == NaN
    ensures StampAsWritten(Some(NaN), slot) == (NaN, NumberSlot(NaN))
    decreases k
  {
    if k > 0 {
      var (id, next) := StampAsWritten(None, slot);
      AsWrittenEveryInstanceGetsNaN(k - 1, next);
      var r := RegisterFreshAsWritten(k, slot);
      assert r.0 == [id] + RegisterFreshAsWritten(k - 1, next).0;
      forall i | 0 <= i < k
        ensures r.0[i] == NaN
      {
        if i > 0 {
          assert r.0[i] == RegisterFreshAsWritten(k - 1, next).0[i - 1];
        }
      }
    }
  }

  /** The two first instances of the program end up with the same scope id. */
  lemma AsWrittenFirstTwoInstancesCollide()
    ensures var ids := RegisterFreshAsWritten(2, ObjectSlot).0; ids[0] == ids[1]
  {
    AsWrittenEveryInstanceGetsNaN(2, ObjectSlot);
  }

  /** The counter as intended: the number 1, incremented for each fresh instance. */
  function RegisterFresh(k: nat, counter: nat): (r: (seq<nat>, nat))
    ensures |r.0| == k
    decreases k
  {
    if k == 0 then ([], counter)
    else
      var (rest, last) := RegisterFresh(k - 1, counter + 1);
      ([counter] + rest, last)
  }

  /** With a numeric counter, the `i`-th fresh instance gets `counter + i`: distinct, non-zero ids. */
  lemma {:induction false} FreshIdsAreDistinct(k: nat, counter: nat)
    ensures forall i :: 0 <= i < k ==> RegisterFresh(k, counter).0[i] == counter + i
    ensures RegisterFresh(k, counter).1 == counter + k
    ensures counter >= 1 ==> forall i, j :: 0 <= i < j < k ==>
      0 < RegisterFresh(k, counter).0[i] < RegisterFresh(k, counter).0[j]
    decreases k
  {
    if k > 0 {
      FreshIdsAreDistinct(k - 1, counter + 1);
      var r := RegisterFresh(k, counter);
      forall i | 0 <= i < k
        ensures r.0[i] == counter + i
      {
        if i > 0 {
          assert r.0[i] == RegisterFresh(k - 1, counter + 1).0[i - 1];
        }
      }
    }
  }
}

=== FILE: storage.dfy ===
/**
 * The prefixed, expiring key/value store over the browser's `localStorage`.
 * `localStorage` is a map from keys to the records read back from it; the clock is a parameter
 * (whole seconds); JSON serialisation of the value is left abstract.
 */
module Storage {
  import opened Wrappers
  import opened Text

  /** A stored value, kept as its serialised text. */
  type Json = string

  /** What a key of `localStorage` parses to. */
  datatype Item =
    | Record(v: Json, e: Option<int>, t: Option<int>)  // `{v, e, t}`; `None` is a missing field
    | Unparseable                                       // text that `JSON.parse` rejects

  /** The expiry written for "never expires". */
  const NeverExpires: int := -1

  /** The prefix of the exported store. */
  const StorePrefix: string := "study-game"

  /** JavaScript truthiness of an optional number: a missing field and `0` are falsy. */
  predicate Falsy(x: Option<int>) {
    x.None? || x.value == 0
  }

  /** `genKey`: the prefix list and the key joined with `:`. */
  function GenKey(suffix: seq<string>, key: string): (r: string)
    ensures suffix == [] ==> r == key
    ensures suffix != [] ==> r == Join(suffix, ':') + ":" + key
  {
    if suffix == [] then
      assert suffix + [key] == [key];
      Join(suffix + [key], ':')
    else
      JoinSnoc(suffix, key, ':');
      Join(suffix + [key], ':')
  }

  /** Distinct keys never share a storage slot, so `clear` of one key leaves every other key alone. */
  lemma GenKeyInjective(suffix: seq<string>, k1: string, k2: string)
    requires GenKey(suffix, k1) == GenKey(suffix, k2)
    ensures k1 == k2
  {
    if suffix != [] {
      JoinSnoc(suffix, k1, ':');
      JoinSnoc(suffix, k2, ':');
      var p := Join(suffix, ':') + [':'];
      assert GenKey(suffix, k1) == p + k1 && GenKey(suffix, k2) == p + k2;
      assert k1 == (p + k1)[|p|..] && k2 == (p + k2)[|p|..];
    } else {
      assert [k1] + [] == [k1] && suffix + [k1] == [k1] && suffix + [k2] == [k2];
    }
  }

  /** The record `save` writes at time `now`: a falsy expiry becomes the never-expires sentinel. */
  function Saved(value: Json, exp: Option<int>, now: int): (r: Item)
    ensures r.Record? && r.v == value && r.t == Some(now)
    ensures r.e == Some(NeverExpires) <==> Falsy(exp) || exp == Some(NeverExpires)
    ensures !Falsy(r.e)
  {
    Record(value, Some(if Falsy(exp) then NeverExpires else exp.value), Some(now))
  }

  /** What `load` returns and whether the key survives it. */
  datatype Outcome = Outcome(value: Json, keep: bool)

  /**
   * `load` of `item` (`None` when the key is absent) at time `now`: absent gives the default and keeps
   * the store; an unparseable record or one with a falsy `e` or `t` is removed; the sentinel never
   * expires; otherwise the record is removed once `t + e <= now`.
   */
  function Loaded(item: Option<Item>, default: Json, now: int): (r: Outcome)
    ensures item.None? ==> r == Outcome(default, true)
    ensures !r.keep ==> r.value == default
    ensures r.keep && item.Some? ==> item.value.Record? && r.value == item.value.v
    ensures item.Some? ==>
      (r.keep <==> item.value.Record? && !Falsy(item.value.e) && !Falsy(item.value.t) &&
                   (item.value.e.value == NeverExpires || now < item.value.t.value + item.value.e.value))
  {
    match item
    case None => Outcome(default, true)
    case Some(Unparseable) => Outcome(default, false)
    case Some(Record(v, e, t)) =>
      if Falsy(e) || Falsy(t) then Outcome(default, false)
      else if e.value == NeverExpires then Outcome(v, true)
      else if t.value + e.value <= now then Outcome(default, false)
      else Outcome(v, true)
  }

  /** An unparseable record, or one whose `e` or `t` is missing or zero, is removed and gives the default. */
  lemma InvalidRecordDropped(item: Item, default: Json, now: int)
    requires item.Unparseable? || (item.Record? && (Falsy(item.e) || Falsy(item.t)))
    ensures Loaded(Some(item), default, now) == Outcome(default, false)
  {
  }

  /** A stored record with `e == -1` and a non-zero `t` is kept and returned at any time. */
  lemma SentinelNeverExpires(v: Json, t: int, now: int, default: Json)
    requires t != 0
    ensures Loaded(Some(Record(v, Some(NeverExpires), Some(t))), default, now) == Outcome(v, true)
  {
  }

  /** A value saved without an expiry (or with expiry 0) is loaded back at any later time. */
  lemma NeverExpiringRoundTrip(value: Json, exp: Option<int>, savedAt: int, now: int, default: Json)
    requires Falsy(exp) && savedAt != 0
    ensures Loaded(Some(Saved(value, exp, savedAt)), default, now) == Outcome(value, true)
  {
  }

  /** A value saved with a positive expiry is loaded back strictly before `savedAt + exp`. */
  lemma RoundTripBeforeExpiry(value: Json, exp: int, savedAt: int, now: int, default: Json)
    requires exp > 0 && savedAt != 0 && now < savedAt + exp
    ensures Loaded(Some(Saved(value, Some(exp), savedAt)), default, now) == Outcome(value, true)
  {
  }

  /** At `savedAt + exp` and later the record is gone and the default comes back (inclusive boundary). */
  lemma ExpiredAtBoundary(value: Json, exp: int, savedAt: int, now: int, default: Json)
    requires exp > 0 && savedAt != 0 && savedAt + exp <= now
    ensures Loaded(Some(Saved(value, Some(exp), savedAt)), default, now) == Outcome(default, false)
  {
  }

  /** The browser's `localStorage`. */
  class LocalStorage {
    var items: map<string, Item>

    constructor ()
      ensures items == map[]
    {
      items := map[];
    }
  }

  /** `VStorage`: keys are prefixed with `suffix`; records carry their value, expiry and save time. */
  class VStorage {
    const suffix: seq<string>
    const local: LocalStorage

    constructor (prefix: string, local: LocalStorage)
      ensures suffix == [prefix] && this.local == local
    {
      suffix := [prefix];
      this.local := local;
    }

    method Save(key: string, value: Json, exp: Option<int>, now: int)
      modifies local
      ensures local.items == old(local.items)[GenKey(suffix, key) := Saved(value, exp, now)]
    {
      var k := GenKey(suffix, key);
      var e := if Falsy(exp) then NeverExpires else exp.value;
      local.items := local.items[k := Record(value, Some(e), Some(now))];
    }

    method Load(key: string, default: Json, now: int) returns (value: Json)
      modifies local
      ensures var k := GenKey(suffix, key);
              var r := Loaded(if k in old(local.items) then Some(old(local.items)[k]) else None, default, now);
              value == r.value && local.items == if r.keep then old(local.items) else old(local.items) - {k}
    {
      var k := GenKey(suffix, key);
      if k !in local.items {
        return default;
      }
      match local.items[k]
      case Unparseable =>
        local.items := local.items - {k};
        return default;
      case Record(v, e, t) =>
        if Falsy(e) || Falsy(t) {
          local.items := local.items - {k};
          return default;
        }
        if e.value == NeverExpires {
          return v;
        }
        if t.value + e.value <= now {
          local.items := local.items - {k};
          return default;
        }
        return v;
    }

    method Clear(key: string)
      modifies local
      ensures local.items == old(local.items) - {GenKey(suffix, key)}
    {
      local.items := local.items - {GenKey(suffix, key)};
    }

    method ClearAll()
      modifies local
      ensures local.items == map[]
    {
      local.items := map[];
    }
  }
}

=== FILE: text.dfy ===
/** The few JavaScript string operations the core relies on: `split`, `join` and ASCII `toLowerCase`. */
module Text {

  /** `s.split(sep)`: the pieces of `s` between occurrences of `sep` (never empty: `"".split(sep)` is `[""]`). */
  function Split(s: string, sep: char): (parts: seq<string>)
    ensures |parts| >= 1
    ensures forall i :: 0 <= i < |parts| ==> sep !in parts[i]
    ensures Join(parts, sep) == s
    decreases |s|
  {
    if s == [] then [""]
    else
      var rest := Split(s[1..], sep);
      if s[0] == sep then
        assert s == [sep] + s[1..];
        [""] + rest
      else
        var parts := [[s[0]] + rest[0]] + rest[1..];
        assert parts[1..] == rest[1..];
        assert s == [s[0]] + s[1..];
        parts
  }

  /** `parts.join(sep)`. */
  function Join(parts: seq<string>, sep: char): (s: string)
    decreases |parts|
  {
    if parts == [] then ""
    else if |parts| == 1 then parts[0]
    else parts[0] + [sep] + Join(parts[1..], sep)
  }

  /** Every character of a piece comes from the split string. */
  lemma {:induction false} SplitChars(s: string, sep: char)
    ensures forall i, c :: 0 <= i < |Split(s, sep)| && c in Split(s, sep)[i] ==> c in s
    decreases |s|
  {
    if s != [] {
      SplitChars(s[1..], sep);
      var rest := Split(s[1..], sep);
      var parts := Split(s, sep);
      assert s == [s[0]] + s[1..];
      forall i, c | 0 <= i < |parts| && c in parts[i] ensures c in s {
        if s[0] == sep {
          assert i > 0 && parts[i] == rest[i - 1];
          assert c in s[1..];
        } else if i == 0 {
          assert parts[0] == [s[0]] + rest[0];
          assert c == s[0] || c in s[1..];
        } else {
          assert parts[i] == rest[i];
          assert c in s[1..];
        }
      }
    }
  }

  /** Joining then splitting gives the pieces back when no piece contains the separator. */
  lemma {:induction false} SplitJoin(parts: seq<string>, sep: char)
    requires |parts| >= 1
    requires forall i :: 0 <= i < |parts| ==> sep !in parts[i]
    ensures Split(Join(parts, sep), sep) == parts
    decreases |parts|
  {
    if |parts| == 1 {
      SplitNoSep(parts[0], sep);
    } else {
      SplitJoin(parts[1..], sep);
      SplitPrefix(parts[0], Join(parts[1..], sep), sep);
      assert [parts[0]] + parts[1..] == parts;
    }
  }

  /** A string without the separator splits into itself alone. */
  lemma {:induction false} SplitNoSep(s: string, sep: char)
    requires sep !in s
    ensures Split(s, sep) == [s]
    decreases |s|
  {
    if s != [] {
      SplitNoSep(s[1..], sep);
      assert [s[0]] + s[1..] == s;
    }
  }

  /** Splitting `a + sep + b`, where `a` has no separator, yields `a` followed by the pieces of `b`. */
  lemma {:induction false} SplitPrefix(a: string, b: string, sep: char)
    requires sep !in a
    ensures Split(a + [sep] + b, sep) == [a] + Split(b, sep)
    decreases |a|
  {
    if a == [] {
      assert a + [sep] + b == [sep] + b;
      assert ([sep] + b)[1..] == b;
    } else {
      var s := a + [sep] + b;
      assert s[0] == a[0] && s[1..] == a[1..] + [sep] + b;
      SplitPrefix(a[1..], b, sep);
      assert [a[0]] + a[1..] == a;
    }
  }

  /** Joining a list with one more piece appends the separator and that piece. */
  lemma {:induction false} JoinSnoc(parts: seq<string>, last: string, sep: char)
    requires |parts| >= 1
    ensures Join(parts + [last], sep) == Join(parts, sep) + [sep] + last
    decreases |parts|
  {
    if |parts| == 1 {
      assert parts + [last] == [parts[0], last];
      assert [parts[0], last][1..] == [last];
    } else {
      assert (parts + [last])[1..] == parts[1..] + [last];
      JoinSnoc(parts[1..], last, sep);
    }
  }

  predicate IsUpper(c: char) { 'A' <= c <= 'Z' }

  /** ASCII lower-casing of one character. */
  function LowerChar(c: char): (r: char)
    ensures !IsUpper(r)
    ensures IsUpper(c) ==> 'a' <= r <= 'z'
    ensures !IsUpper(c) ==> r == c
  {
    if IsUpper(c) then (c as int + 32) as char else c
  }

  /** `s.toLowerCase()` restricted to ASCII letters. */
  function Lower(s: string): (r: string)
    ensures |r| == |s|
    ensures forall i :: 0 <= i < |s| ==> r[i] == LowerChar(s[i])
    ensures IsLower(r)
  {
    var r := seq(|s|, i requires 0 <= i < |s| => LowerChar(s[i]));
    assert forall c :: c in r ==> exists i :: 0 <= i < |s| && c == LowerChar(s[i]);
    r
  }

  /** No upper-case ASCII letter occurs in `s`. */
  predicate IsLower(s: string) {
    forall c :: c in s ==> !IsUpper(c)
  }

  /** Lower-casing distributes over concatenation and leaves the separators of a tag alone. */
  lemma LowerConcat(a: string, b: string)
    ensures Lower(a + b) == Lower(a) + Lower(b)
  {
  }

  /** Lower-casing keeps non-letters, so it neither creates nor removes a separator. */
  lemma LowerKeepsSep(s: string, sep: char)
    requires !IsUpper(sep) && !('a' <= sep <= 'z')
    ensures sep in Lower(s) <==> sep in s
  {
    if sep in Lower(s) {
      var i :| 0 <= i < |s| && Lower(s)[i] == sep;
      assert s[i] == sep;
    }
    if sep in s {
      var i :| 0 <= i < |s| && s[i] == sep;
      assert Lower(s)[i] == sep;
    }
  }

  /** Each piece lower-cased. */
  function LowerAll(ps: seq<string>): (r: seq<string>)
    ensures |r| == |ps| && forall i :: 0 <= i < |ps| ==> r[i] == Lower(ps[i])
  {
    seq(|ps|, i requires 0 <= i < |ps| => Lower(ps[i]))
  }

  /** Lower-casing a joined list lower-cases each piece and keeps the separators. */
  lemma {:induction false} LowerJoin(ps: seq<string>, sep: char)
    requires !IsUpper(sep)
    ensures Lower(Join(ps, sep)) == Join(LowerAll(ps), sep)
    decreases |ps|
  {
    if |ps| > 1 {
      LowerJoin(ps[1..], sep);
      LowerConcat(ps[0] + [sep], Join(ps[1..], sep));
      LowerConcat(ps[0], [sep]);
      assert Lower([sep]) == [sep];
      assert LowerAll(ps)[1..] == LowerAll(ps[1..]);
    }
  }
}

=== FILE: wrappers.dfy ===
/** Optional values: JavaScript's `undefined` / "not found" made explicit. */
module Wrappers {
  datatype Option<+T> = None | Some(value: T) {
    function GetOr(default: T): T {
      match this
      case Some(v) => v
      case None => default
    }
  }
}
